=== FILE: README.md ===
# rbx session client: a Dafny model

This project models the sequential core of sentanos/rbx, a Go client for a
game platform's web site. It covers three parts:

- **The session client** (`client/client.go`). A request that the server
  rejects for its anti-forgery token (`X-CSRF-TOKEN`) is sent again. The
  resend carries the fresh token from the rejection and a copy of the
  original body. A verified request is a POST built from a page's hidden
  verification inputs. `Do`, `Get`, `Post` and `PostForm` all enter the retry
  logic at depth 0.
- **The transaction feed** (`user/transaction.go`).
  - `GetTransactions` posts a page request and turns each row of the reply
    into a `Transaction`. Purchases get their amount negated. The item ID is
    taken from the item URL. The call is all or nothing.
  - `Transaction.String` renders one transaction.
  - `syncSales` walks pages of sales from the newest on. It sends the sales
    newer than a high-water mark and returns the next mark. The mark `-1`
    means "take a baseline, send nothing".
- **Model upload** (`user/upload.go`). `UploadModel` turns the model's
  options into the query of the upload URL. It posts the body through the
  client and reads the asset and version IDs off the reply.

The network is replaced by inputs:

- The client's transport is a script: the `Client` object holds the outcomes
  it will give, one per transmission, and logs each request it puts on the
  wire.
- `handle` changes the caller's request in place: it adds tokens and puts
  back the copied body. So a request is a `class`, and `handle` is a method
  proved against the function `Run`, which describes a whole call as a value.
- `syncSales` is given the page replies: page k is what `GetTransactions`
  answers to the request for start index 20k. Its channel is the sequence of
  sales it sends.
- JSON decoding, `json.Marshal`, HTML parsing, `url.Values.Encode`,
  `time.Parse` and URL parsing are function parameters.
- Go's `int` is taken to be 64 bits wide (`Conversions.int64`).
  `strconv.Atoi` is written out, including its syntax and range errors.
  `strconv.Itoa` is written out as a minus sign for negatives followed by
  the shortest decimal digits.
- The one regular expression, `https://www\.roblox\.com/library/(\d+)/`, is
  written out as a leftmost-match search.
- `Date.Format("2006-01-02")` is written out.

The code itself points at two intentions it does not carry out:

- `MaxDepth = 3` (client/client.go:15) and the "after %d tries" message
  (client/client.go:82-84) suggest a retry cap. The retry path never checks
  the depth.
- `shortPoll` hands the mark from one call of `syncSales` to the next
  (user/util.go:42), which suggests a high-water mark that only moves
  forward. The mark returned can move back.

The model follows the code. Findings shows each gap, and a corrected
definition beside it.

Modules:

- `errors.dfy`: errors in the shape pkg/errors gives them, plus `Option`
  and `Result`.
- `conversions.dfy`: `strconv` and Go's `string(int)`.
- `http.dfy`: header and form-value maps with canonical header keys.
- `client.dfy`: `client/client.go`.
- `transaction.dfy`: `user/transaction.go`.
- `upload.dfy`: `user/upload.go`.

## Model

| member | source | states |
|---|---|---|
| `Client.Client.Handle` | client/client.go:61-97 | handle returns the response and error of `Run` on the outcomes it meets. The caller's request ends as `Run` leaves it. One outcome is consumed per transmission, and the transmissions are logged in order. |
| `Client.Client.Resend` | client/client.go:89-93 | After a rejection that carried a token, the token is appended to the header and the body is replaced by the copy taken before sending. The request is then handled again at depth + 1. |
| `Client.Client.Transmit` | client/client.go:73 | One transmission takes the next outcome, logs the request as it was, and consumes the request's body. |
| `Client.Attempt` | client/client.go:64-96 | One pass resends exactly when the body could be copied and the outcome is a 403 token rejection with a non-empty token. Every other pass sends at most once and ends the call. A call without an error has a response. |
| `Client.RunCloneFails` | client/client.go:67-71 | When GetBody fails, the call sends nothing, returns "Failed to clone body" wrapping its error, and leaves the request as it was. |
| `Client.TokenRejectionStatus` | client/client.go:77-79 | A response is a token rejection exactly when it is a 403 with the status line "403 XSRF Token Validation Failed" or "403 Token Validation Failed". |
| `Client.TokenMissingNamesHeader` | client/client.go:81-87 | The message always starts "Failed to retrieve X-CSRF-TOKEN". Below MaxDepth it is exactly that. |
| `Client.Retried` | client/client.go:89-92 | The request for a retry keeps its method, URL and GetBody, and can still be copied. Its body is the copy taken before sending. Its `X-CSRF-TOKEN` values gain the fresh token at the end, and no other header entry changes. |
| `Client.LeadingRetries` | client/client.go:77-93 | The first n outcomes each make handle resend, and outcome n does not. |
| `Client.Run` | client/client.go:61-97 | A call sends at most one request more than the leading retries. A call that ends without an error has a response. |
| `Client.RunSettle` | client/client.go:73-96 | An outcome that does not cause a retry ends the call after one transmission of the request as it is. |
| `Client.RunTransmissions` | client/client.go:61-93 | The request is sent exactly once per leading retry plus once more, always with the same method and URL. The first send carries the original body; every resend carries the copy. |
| `Client.RunTokens` | client/client.go:80-93 | Send i carries the request's own `X-CSRF-TOKEN` values followed by the first i fresh tokens, in order. |
| `Client.RunLastHeader` | client/client.go:89-93 | The caller's request ends with the header of the last transmission. |
| `Client.RunKeepsOtherHeaders` | client/client.go:89 | handle itself changes no header entry other than `X-CSRF-TOKEN`. |
| `Client.RunResult` | client/client.go:73-96 | The outcome after the leading retries decides the result. A transport error is passed on with any response that came with it, and an answer that is not a token rejection is returned as is. A rejection without a token gives the message for depth + n. |
| `Client.RunAfter` | client/client.go:64-92 | The caller's request keeps its method, URL and GetBody, and its body ends consumed. |
| `Client.TokenMissingAtMaxDepth` | client/client.go:82-84 | At depth 3 the message is "Failed to retrieve X-CSRF-TOKEN after 3 tries". |
| `Client.RetriesPastMaxDepth` | client/client.go:89-93 | With more than MaxDepth leading retries, the request is sent more than MaxDepth + 1 times. |
| `Client.RunCapped` | client/client.go:82-93 | A capped handle sends at most MaxDepth + 1 - depth times. It needs only the outcomes it uses: a script that settles, or one that lasts until the cap. |
| `Client.CappedAgreesBelowCap` | client/client.go:61-97 | With no more leading retries than the cap allows, the capped handle does exactly what handle does. |
| `Client.CappedSends` | client/client.go:15 | Against a server that keeps rejecting with fresh tokens, the capped handle sends exactly MaxDepth + 1 times. |
| `Client.CappedGivesUp` | client/client.go:82-84 | The capped handle then ends with the "after 3 tries" error. |
| `Client.FirstNamedInput` | client/client.go:107-108 | The selector `input[name="..."]` matches the first element that is an input with that name; there is no earlier one. |
| `Client.GetVerificationInputs` | client/client.go:99-116 | A page that does not parse gives "Failed to parse body". Otherwise the form holds a value for exactly the configured names whose first matching input has a value attribute, once for each time the name is configured. |
| `Client.Client.Do` | client/client.go:161-163 | Do is handle from depth 0. |
| `Client.Client.Get` | client/client.go:153-159 | A URL that does not parse gives "Failed to create request" and nothing is sent. Otherwise it is handle of a body-less GET from depth 0. |
| `Client.Client.Post` | client/client.go:165-173 | The same URL check; otherwise it is handle of a POST with the given Content-Type and a copyable body, from depth 0. |
| `Client.Client.PostForm` | client/client.go:175-179 | PostForm is Post of the form values as `application/x-www-form-urlencoded`. |
| `Client.Client.NewVerifiedRequest` | client/client.go:122-151 | The page is fetched with a GET from `from`, or from `url` when `from` is empty. Each failure is wrapped with its own context, and the result is a request exactly when there is no error. The request returned is a new object. |
| `Client.Client.Prepare` | client/client.go:137-150 | The verified request is a fresh POST to `url` with the harvested form as body. Its header holds the page's `__RequestVerificationToken` header only when that is not empty, plus the form Content-Type. |
| `Http.GetHeader` | client/client.go:80 | Header.Get is the first value under the canonical key when there is one, and "" when there is none. |
| `Http.CanonicalKey` | client/client.go:80-89 | A canonical key has the key's length. A key that is not a field name is kept as it is. |
| `Http.CanonicalKeyIgnoresCase` | client/client.go:80-89 | Field names that differ only in the case of their letters have one canonical key. |
| `Client.XsrfAnyCase` | client/client.go:80-89 | Every case spelling of `X-CSRF-TOKEN` reaches the entry handle reads and appends to. |
| `Http.AddHeader` | client/client.go:89 | Header.Add appends the value under the canonical key and leaves every other key alone. |
| `Http.SetHeader` | client/client.go:147-149 | Header.Set makes the value the only one under the canonical key and leaves every other key alone. |
| `Http.AddValue` | client/client.go:111 | url.Values.Add appends the value under the key and leaves every other key alone. |
| `Http.SetValue` | user/upload.go:23-33 | url.Values.Set makes the value the only one under the key and leaves every other key alone. |
| `Http.CanonicalKeyIdempotent` | client/client.go:80-89 | Canonicalizing a key twice gives the same key as once: a canonical key is its own canonical form. |
| `Conversions.Atoi` | user/transaction.go:135-152 | strconv.Atoi succeeds exactly on an optional sign followed by digits whose value fits in 64 bits, and then returns that value. Otherwise it returns a NumError naming the text. |
| `Conversions.Itoa` | user/upload.go:65 | Itoa writes a non-empty string of digits and minus signs that starts with '-' exactly for negative numbers. |
| `Conversions.AtoiItoa` | user/upload.go:65 | Atoi reads back every number Itoa writes. |
| `Conversions.FormatBool` | user/upload.go:30-31 | FormatBool gives "true" exactly for true and "false" for false. |
| `Conversions.CodePointString` | user/transaction.go:88 | `string(x)` is the one character whose code point is x, or U+FFFD when x is not a scalar value. |
| `Conversions.CodePointIsNotDecimal` | user/upload.go:33 | `string(x)` never reads back as x. |
| `Transactions.Describe` | user/transaction.go:39-54 | A description starts with "[" and ends with " robux @ " and the formatted date. |
| `Transactions.DescribeReadsBackId` | user/transaction.go:50-51 | A description starts with the transaction ID in brackets, and that ID reads back. |
| `Transactions.DescribeVerb` | user/transaction.go:43-51 | The verb follows the ID: "Purchased" for a purchase, "Sold" otherwise. |
| `Transactions.DescribeDirection` | user/transaction.go:43-52 | After the item's ID comes "from" for a purchase and "to" otherwise. |
| `Transactions.Padded` | user/transaction.go:40 | A date field is zero-padded on the left to its width and ends with its digits. |
| `Transactions.Leftmost` | user/transaction.go:119 | The search finds the first position where the item URL pattern matches, and no earlier position matches. |
| `Transactions.FindSubmatch` | user/transaction.go:139-144 | The match gives two strings or none. None means the pattern matches nowhere. Otherwise the group is the non-empty run of digits after the library prefix at the leftmost match. |
| `Transactions.ItemUrlRoundTrip` | user/transaction.go:119-148 | The URL of an item's library page yields the item's ID. |
| `Transactions.Negate` | user/transaction.go:153-154 | `amount * -1` negates every 64-bit value except the smallest, which wraps to itself. |
| `Transactions.ToTransaction` | user/transaction.go:127-164 | A row converts exactly when the member ID, the item URL match, the item ID, the amount and the date all parse. Each step's failure, once the earlier steps have succeeded, gives its own wrapped error. The transaction has the sale ID and the requested kind, and the amount is negated for a purchase. |
| `Transactions.MapRow` | user/transaction.go:122-164 | A row that does not decode gives "Failed to parse row". A row that decodes gives what `ToTransaction` makes of its fields: the transaction or the first field error. |
| `Transactions.MapAll` | user/transaction.go:121-167 | A successful call has one transaction per row. |
| `Transactions.MapAllRows` | user/transaction.go:121-166 | The call succeeds exactly when every row converts. |
| `Transactions.MapAllValues` | user/transaction.go:121-166 | Row i becomes transaction i. |
| `Transactions.MapAllPrefixFails` | user/transaction.go:121-166 | Once a prefix of the rows fails, the whole call fails the same way. |
| `Transactions.MapAllFirstError` | user/transaction.go:121-166 | The error returned is the one of the first row that fails, and no transactions come back. |
| `Transactions.ListForm` | user/transaction.go:79-89 | The request form holds exactly the transaction type's name and the start index. The start index is converted with `string(start)`. |
| `Transactions.KindName` | user/transaction.go:79-85 | A sale is named "sale" and a purchase "purchase", and no other kind has either name. |
| `Transactions.StartIndexNotDecimal` | user/transaction.go:88 | The start index field never reads back as the start index. |
| `Transactions.ListFormIntended` | user/transaction.go:86-89 | The corrected form has the same two keys and the same type name. |
| `Transactions.StartIndexRoundTrip` | user/transaction.go:88 | In the corrected form, the start index reads back. |
| `Transactions.GetTransactions` | user/transaction.go:77-168 | A marshal failure or a URL that does not parse sends nothing. Otherwise the form goes out through Post with the JSON Content-Type, and the result is the reply's listing. |
| `Transactions.Listing` | user/transaction.go:97-167 | A failed Post is wrapped as "Failed to retrieve transactions". Then, in order: a status other than 200 gives "Unknown status code", an envelope that does not decode gives "Failed to parse JSON", a missing "d" gives "No data found", and rows that do not decode give "Failed to parse data JSON". The result is a list exactly when all of that passes and every row converts, and then row i becomes transaction i. |
| `Transactions.MapReply` | user/transaction.go:100-167 | The reply handling after a successful Post gives what `Listing` states. |
| `Transactions.MapRows` | user/transaction.go:120-167 | The row loop returns the all-or-nothing mapping of the rows. |
| `Transactions.NewItems` | user/transaction.go:187-189 | The items sent from a page are its longest prefix with IDs above the mark: all of them are newer, and the next item, if any, is not. |
| `Transactions.LeadingPages` | user/transaction.go:181-197 | The first n pages each continue the walk, and page n does not. |
| `Transactions.Walk` | user/transaction.go:170-200 | The first request is for start index 0. A call that fails returns the old mark. With the mark -1 nothing is sent and only page 0 is requested. |
| `Transactions.WalkFrom` | user/transaction.go:180-197 | The walk from page k asks first for start index 20k, and a walk that fails keeps the old mark. |
| `Transactions.WalkBaseline` | user/transaction.go:171-178 | With the mark -1, only page 0 is requested and nothing is sent. The new mark is page 0's first ID, or -1. |
| `Transactions.WalkStarts` | user/transaction.go:180-196 | Page k is requested at start index 20k, for pages up to and including the first one that does not continue. |
| `Transactions.WalkSent` | user/transaction.go:182-189 | The sales sent are the new items of every page read, in page order. A page that fails sends nothing, and earlier sends stand. |
| `Transactions.WalkEnds` | user/transaction.go:183-199 | A failed page returns the old mark with the wrapped error, and an empty page returns the old mark. A page whose last item is not newer returns that page's first ID. |
| `Transactions.SyncSales` | user/transaction.go:170-200 | syncSales returns and sends what the walk over the pages does. |
| `Transactions.SendNewItems` | user/transaction.go:187-189 | The index loop sends exactly the page's new items. |
| `Transactions.MarkRegresses` | user/transaction.go:192-194 | With mark 45 and pages [50, 48] and [44, 40], 50 and 48 are sent and the mark becomes 44. The next call sends 50 and 48 again. |
| `Transactions.EmptyPageKeepsMark` | user/transaction.go:190-191 | With mark 45 and pages [50] and [], 50 is sent and the mark stays 45. |
| `Transactions.WalkIntended` | user/transaction.go:192-194 | The corrected walk sends the same sales and errors. When the call succeeds and page 0 is not empty, it hands on page 0's first ID. Otherwise it hands on what the walk as written does. |
| `Transactions.NoResendAcrossTicks` | user/transaction.go:170-200 | With the corrected mark and a newest-first page 0, the next call on the same pages sends nothing. |
| `Upload.Query` | user/upload.go:22-34 | The query holds exactly the fixed keys, plus `groupId` when GroupID is not -1, with one value each. `groupId` holds `string(GroupID)`. |
| `Upload.UploadRequest` | user/upload.go:36-42 | The upload is a POST to the URL. Its body is the given payload, unread, and GetBody yields that payload. The header holds exactly the Content-Type and User-Agent entries: Content-Type is `application/xml`, and User-Agent is present and empty. |
| `Upload.UploadHeadersCanonical` | user/upload.go:41-42 | "Content-Type" and "User-Agent" are their own canonical keys, so both values are stored under the names as written. |
| `Upload.QueryFlags` | user/upload.go:30-31 | `ispublic` is "true" exactly when the model is not copy-locked, and `allowComments` mirrors the option. |
| `Upload.QueryFixed` | user/upload.go:23-29 | The query has `type=Model`, `genreTypeId=1`, `json=1` and `assetid=0`, and the name and description as given. |
| `Upload.BuildQuery` | user/upload.go:22-34 | The successive Set calls build exactly that query. |
| `Upload.GroupIdNotDecimal` | user/upload.go:32-34 | The `groupId` value never reads back as the group ID. |
| `Upload.QueryIntended` | user/upload.go:32-34 | The corrected query has the same keys and differs at most in `groupId`. |
| `Upload.GroupIdRoundTrip` | user/upload.go:33 | In the corrected query, `groupId` reads back as the group ID. |
| `Upload.ReadReply` | user/upload.go:47-65 | A status other than 200 is an error carrying it, and a body that does not decode is "Failed to parse JSON". Success requires both `AssetId` and `AssetVersionId`; without them the result is "Invalid JSON". |
| `Upload.UploadIdsRoundTrip` | user/upload.go:57-65 | The IDs returned read back as the IDs in the reply. |
| `Upload.UploadModel` | user/upload.go:20-66 | A URL that does not parse sends nothing. Otherwise the body goes out with an XML Content-Type and an empty User-Agent through handle from depth 0. Both IDs are "" on any error. |
| `Upload.FinishUpload` | user/upload.go:47-65 | The checks on the reply, one after the other, report what `ReadReply` does. |

## Left out

- `FromCookie` and `SetupRedirectHandler` (client/client.go:27-59): cookie-jar and redirect-policy wiring around the real transport, which the script replaces.
- The transport's own behaviour (redirects, connection reuse, closing response bodies) is not modelled. A response body is a string.
- `Client.Client.Transmit`: net/http's client adds the jar's cookies (`.ROBLOSECURITY`, installed by `FromCookie`) to the `Cookie` entry of the caller's own request on every send, so a resend carries the pair twice. The model's transport leaves the header untouched, so `Client.RunKeepsOtherHeaders` and `Client.RunLastHeader` describe only what handle itself writes.
- `Client.Client.Handle`: requires the script to reach an outcome that ends the retries. The code puts no bound on them, so against a server that always rejects with a fresh token it would never return. That case is not modelled. `Client.Client.Do` requires the same. Both require it even for a request whose body cannot be copied, which the code returns at once. `Get`, `Post`, `PostForm`, `NewVerifiedRequest`, `GetTransactions` and `UploadModel` require it only when the URL parses and a request goes out.
- `Transactions.SyncSales`: requires the pages to hold one that ends the walk, for the same reason.
- A request whose body reader has no GetBody is not modelled. Go's `http.NewRequest` sets GetBody only for string, byte-slice and byte-buffer readers, and handle would call a nil GetBody for any other reader passed to `Post` or `UploadModel`. The model's bodies are always such payloads.
- JSON decoding and `json.Marshal`, goquery's HTML parsing, `url.Values.Encode` and URL parsing are function parameters, not modelled.
- `time.Parse("1/2/06")` is a function parameter. A date keeps only year, month and day, and `Date.Format` is written out for non-negative fields only.
- `TransactionType` has only `Sale` and `Purchase`. Go's underlying int could hold other values, which `String` would render as "Sold".
- `TrackSales` and `shortPoll` (user/transaction.go:202-223, user/util.go:30-48): goroutines, channels and a ticker. One call of `syncSales` is modelled, and the corrected mark's effect on the next call is stated by `NoResendAcrossTicks`.
- user/user.go and the rest of user/util.go: login, status, username lookups and session upkeep are network calls outside the modelled core.
- main.go: a demo program.
- `Transactions.FindSubmatch`: the whole-match string is computed but its contract only describes the group and whether there is a match. The regular expression engine is written for this one pattern only.

## Findings

| source | as written | input that shows it | evidently intended | confidence | as-written member | corrected member |
|---|---|---|---|---|---|---|
| user/transaction.go:192-194 | The mark returned is the first ID of the page the walk stops on, and an empty page keeps the old mark. Sales already sent are sent again next time, and the mark can fall below the old one. | mark 45, pages [50, 48] then [44, 40]: 50 and 48 are sent and 44 is returned. The next call sends 50 and 48 again. | Hand on the newest ID seen, the first ID of page 0. | not executed; high | `Transactions.MarkRegresses` | `Transactions.NoResendAcrossTicks` |
| client/client.go:89-93 | The retry path never checks the depth; MaxDepth only chooses the message of a rejection without a token. | Four rejections in a row, each with a fresh token, then a 200: the request is sent five times. A server that keeps rejecting is never given up on. | Give up at depth MaxDepth with "Failed to retrieve X-CSRF-TOKEN after 3 tries". | not executed; medium | `Client.RetriesPastMaxDepth` | `Client.CappedGivesUp` |
| user/transaction.go:88 | `string(start)` makes the start index a one-character string whose code point is the index. | start 20 gives "\u0014", not "20". | The index in decimal. | not executed; high | `Transactions.StartIndexNotDecimal` | `Transactions.StartIndexRoundTrip` |
| user/upload.go:33 | `string(options.GroupID)` makes the group a one-character string whose code point is the ID. | GroupID 1234 gives "Ӓ", not "1234". | The group ID in decimal. | not executed; high | `Upload.GroupIdNotDecimal` | `Upload.GroupIdRoundTrip` |

=== FILE: client.dfy ===
/** The session client of client/client.go: requests go through one
    transport, and a request the server rejects for its anti-forgery token
    is sent again with the token the rejection carried.

    The transport is a script: the Client object holds the outcomes the
    transport will give, in order, one per transmission, and the log of what
    it has put on the wire. A request is an object because handle changes it
    in place (its header gains each fresh token, its body is replaced by the
    copy taken before sending), and the caller sees those changes. */
module Client {
  import opened Errors
  import opened Conversions
  import opened Http

  const XSRF := "X-CSRF-TOKEN"
  const MaxDepth: nat := 3
  const BaseURL := "https://www.roblox.com"
  /** The form inputs scraped for a verified request; the first is also
      taken from the response header of the same name. */
  const VerificationInputs: seq<string> := ["__RequestVerificationToken"]
  const FormContentType := "application/x-www-form-urlencoded"
  /** The status lines of a failed token check. */
  const RejectionTail := "Token Validation Failed"
  const XsrfRejected := "403 XSRF " + RejectionTail
  const TokenRejected := "403 " + RejectionTail

  /** What a request body carries. Form(v) stands for the bytes that
      url.Values.Encode produces from v. */
  datatype Payload = Raw(data: string) | Form(values: Values)

  /** The body reader of a request: unread, or consumed by a transmission. */
  datatype Body = Unread(payload: Payload) | Drained

  datatype Response = Response(statusCode: int, status: string, header: Header, body: string)

  /** What one transmission gives back: a transport error (with the response
      that came with it, which Go only supplies when a redirect policy
      refused to follow), or a response. */
  datatype Outcome = Failed(err: Error, partial: Option<Response>) | Answered(res: Response)

  /** A request as one transmission put it on the wire. */
  datatype Wire = Wire(verb: string, url: string, header: Header, body: Option<Body>)

  /** The parts of a request handle reads or changes, as a value. getBody is
      what the request's GetBody answers (None when it has none). */
  datatype RequestState = RequestState(verb: string, url: string, header: Header,
                                       body: Option<Body>, getBody: Option<Result<Payload>>)
  {
    /** A request with a body can be copied before it is sent. */
    predicate Replayable() { body.Some? ==> getBody.Some? }

    /** Copying the body, when there is one, succeeds. */
    predicate Clones() { body.Some? ==> getBody.Some? && getBody.value.Ok? }

    function OnWire(): Wire { Wire(verb, url, header, body) }

    /** The request after a transmission consumed its body. */
    function Drain(): RequestState { this.(body := if body.Some? then Some(Drained) else None) }
  }

  class Request {
    var verb: string
    var url: string
    var header: Header
    var body: Option<Body>
    var getBody: Option<Result<Payload>>

    function State(): RequestState
      reads this
    {
      RequestState(verb, url, header, body, getBody)
    }

    /** http.NewRequest once the URL has parsed: an empty header, and for a
        string or byte payload a GetBody that reproduces it. */
    constructor (verb: string, url: string, payload: Option<Payload>)
      ensures State() == RequestState(verb, url, map[],
                                      if payload.Some? then Some(Unread(payload.value)) else None,
                                      if payload.Some? then Some(Ok(payload.value)) else None)
    {
      this.verb := verb;
      this.url := url;
      this.header := map[];
      this.body := if payload.Some? then Some(Unread(payload.value)) else None;
      this.getBody := if payload.Some? then Some(Ok(payload.value)) else None;
    }
  }

  /** The status lines that say a request failed its token check. */
  predicate IsTokenRejection(res: Response)
  {
    res.statusCode == 403 &&
    (res.status == XsrfRejected || res.status == TokenRejected)
  }

  /** A token rejection is a 403 with one of the two status lines. */
  lemma TokenRejectionStatus(res: Response)
    ensures IsTokenRejection(res) <==>
      res.statusCode == 403
      && (res.status == "403 XSRF Token Validation Failed" || res.status == "403 Token Validation Failed")
  {
    XsrfRejectedLine();
    TokenRejectedLine();
  }

  lemma XsrfRejectedLine()
    ensures XsrfRejected == "403 XSRF Token Validation Failed"
  {
    assert |XsrfRejected| == 32;
  }

  lemma TokenRejectedLine()
    ensures TokenRejected == "403 Token Validation Failed"
  {
    assert |TokenRejected| == 27;
  }

  /** Either status line of a token rejection ends in "Token Validation
      Failed". */
  /** The fresh token a response carries, "" when it carries none. */
  function Token(res: Response): string
  {
    GetHeader(res.header, XSRF)
  }

  /** An outcome after which handle sends the request again. */
  predicate Retries(o: Outcome)
  {
    o.Answered? && IsTokenRejection(o.res) && Token(o.res) != ""
  }

  /** How many outcomes at the head of the script make handle retry. */
  function LeadingRetries(script: seq<Outcome>): (n: nat)
    ensures n <= |script|
    ensures forall i | 0 <= i < n :: Retries(script[i])
    ensures n < |script| ==> !Retries(script[n])
  {
    if script == [] || !Retries(script[0]) then 0 else 1 + LeadingRetries(script[1..])
  }

  /** The script reaches an outcome that ends the retries. handle itself puts
      no bound on the retries, so this is what makes it stop. */
  predicate Settles(script: seq<Outcome>)
  {
    LeadingRetries(script) < |script|
  }

  /** The message of the error for a rejection that brought no token. */
  function TokenMissing(depth: nat): string
  {
    if depth >= MaxDepth then "Failed to retrieve " + XSRF + " after " + Itoa(depth) + " tries"
    else "Failed to retrieve " + XSRF
  }

  /** What a call of handle does: its two results, the transmissions in
      order, and the request as the caller sees it afterwards. */
  datatype Exchange = Exchange(response: Option<Response>, err: Option<Error>, sent: seq<Wire>, after: RequestState)

  /** One pass through handle up to its recursive call. */
  datatype Step = Finished(x: Exchange) | Resend(wire: Wire, next: RequestState)

  /** Copy the body, transmit, read the answer: a transport error or an
      answer that is not a token rejection ends the call as it is, a
      rejection without a token is an error, and a rejection with one
      appends it to the request's token values and restores the body. */
  function Attempt(o: Outcome, req: RequestState, depth: nat): (s: Step)
    requires req.Replayable()
    ensures s.Resend? <==> req.Clones() && Retries(o)
    ensures s.Resend? ==> s.next.Replayable() && s.next.getBody == req.getBody
    ensures s.Finished? ==> |s.x.sent| <= 1 && (s.x.err.None? ==> s.x.response.Some?)
  {
    if req.body.Some? && req.getBody.value.Err? then
      Finished(Exchange(None, Some(Wrapped("Failed to clone body", req.getBody.value.error)), [], req))
    else
      match o
      case Failed(e, partial) => Finished(Exchange(partial, Some(e), [req.OnWire()], req.Drain()))
      case Answered(res) =>
        if !IsTokenRejection(res) then Finished(Exchange(Some(res), None, [req.OnWire()], req.Drain()))
        else if Token(res) == "" then Finished(Exchange(None, Some(Failure(TokenMissing(depth))), [req.OnWire()], req.Drain()))
        else Resend(req.OnWire(), Retried(req, Token(res)))
  }

  /** The request a retry sends: the fresh token appended to its token
      values and the body replaced by the copy taken before sending. */
  function Retried(req: RequestState, token: string): (next: RequestState)
    requires req.Clones()
    ensures next.Replayable() && next.Clones() && next.getBody == req.getBody
    ensures next.verb == req.verb && next.url == req.url
    ensures next.body == if req.body.Some? then Some(Unread(req.getBody.value.value)) else None
    ensures XsrfValues(next.header) == XsrfValues(req.header) + [token]
    ensures next.header - {CanonicalKey(XSRF)} == req.header - {CanonicalKey(XSRF)}
  {
    req.Drain().(header := AddHeader(req.header, XSRF, token),
                 body := if req.body.Some? then Some(Unread(req.getBody.value.value)) else None)
  }

  /** handle as a function of the script it meets: every retry consumes one
      outcome, so it sends at most one request more than the script's
      leading retries. */
  function Run(script: seq<Outcome>, req: RequestState, depth: nat): (x: Exchange)
    requires Settles(script) && req.Replayable()
    ensures |x.sent| <= LeadingRetries(script) + 1
    ensures x.err.None? ==> x.response.Some?
    decreases |script|
  {
    match Attempt(script[0], req, depth)
    case Finished(x) => x
    case Resend(w, next) =>
      var rest := Run(script[1..], next, depth + 1);
      rest.(sent := [w] + rest.sent)
  }

  /** Every spelling of the token header's name, whatever the case of its
      letters, reaches the entry handle reads and appends to. */
  lemma XsrfAnyCase(k: string)
    requires |k| == |XSRF| && forall i | 0 <= i < |k| :: Lower(k[i]) == Lower(XSRF[i])
    ensures CanonicalKey(k) == CanonicalKey(XSRF)
  {
    assert IsToken(XSRF);
    CanonicalKeyIgnoresCase(XSRF, k);
  }

  /** The token values a header carries. */
  function XsrfValues(h: Header): seq<string>
  {
    if CanonicalKey(XSRF) in h then h[CanonicalKey(XSRF)] else []
  }

  /** The tokens the first n outcomes of a script bring back, in order. */
  function Tokens(script: seq<Outcome>, n: nat): (r: seq<string>)
    requires n <= |script|
    ensures |r| == n
  {
    if n == 0 then [] else [if script[0].Answered? then Token(script[0].res) else ""] + Tokens(script[1..], n - 1)
  }

  /** How the outcome that ends the retries ends the call, at the depth
      reached by then. */
  predicate Settled(o: Outcome, depth: nat, response: Option<Response>, err: Option<Error>)
  {
    match o
    case Failed(e, partial) => response == partial && err == Some(e)
    case Answered(res) =>
      if IsTokenRejection(res) then response == None && err == Some(Failure(TokenMissing(depth)))
      else response == Some(res) && err == None
  }

  /** A retry: the request goes out as it is, and handle carries on one
      outcome further with the retried request. */
  lemma RunRetry(script: seq<Outcome>, req: RequestState, depth: nat)
    requires Settles(script) && req.Replayable() && req.Clones() && Retries(script[0])
    ensures Settles(script[1..])
    ensures var rest := Run(script[1..], Retried(req, Token(script[0].res)), depth + 1);
      Run(script, req, depth) == rest.(sent := [req.OnWire()] + rest.sent)
  {
  }

  /** A pass through handle that does not retry is the whole call. */
  lemma RunFinished(script: seq<Outcome>, req: RequestState, depth: nat)
    requires Settles(script) && req.Replayable() && Attempt(script[0], req, depth).Finished?
    ensures Run(script, req, depth) == Attempt(script[0], req, depth).x
  {
  }

  /** No retry: the request goes out once and the outcome ends the call. */
  lemma RunSettle(script: seq<Outcome>, req: RequestState, depth: nat)
    requires Settles(script) && req.Replayable() && req.Clones() && !Retries(script[0])
    ensures var x := Run(script, req, depth);
      x.sent == [req.OnWire()] && x.after == req.Drain() && Settled(script[0], depth, x.response, x.err)
  {
  }

  /** A body that cannot be copied ends the call before anything is sent,
      with the request untouched. */
  lemma RunCloneFails(script: seq<Outcome>, req: RequestState, depth: nat)
    requires Settles(script) && req.Replayable() && !req.Clones()
    ensures Run(script, req, depth) == Exchange(None, Some(Wrapped("Failed to clone body", req.getBody.value.error)), [], req)
  {
  }

  /** handle sends the request once per leading retry and once more; the
      first transmission carries the body as it was, every later one the
      copy of it. */
  lemma {:induction false} RunTransmissions(script: seq<Outcome>, req: RequestState, depth: nat)
    requires Settles(script) && req.Replayable() && req.Clones()
    ensures var n := LeadingRetries(script); var x := Run(script, req, depth);
      && |x.sent| == n + 1
      && (forall i | 0 <= i <= n :: x.sent[i].verb == req.verb && x.sent[i].url == req.url)
      && x.sent[0].body == req.body
      && (forall i | 1 <= i <= n ::
            x.sent[i].body == if req.body.Some? then Some(Unread(req.getBody.value.value)) else None)
    decreases |script|
  {
    if Retries(script[0]) {
      var next := Retried(req, Token(script[0].res));
      RunRetry(script, req, depth);
      RunTransmissions(script[1..], next, depth + 1);
    } else {
      RunSettle(script, req, depth);
    }
  }

  /** The i-th transmission carries the request's own token values followed
      by the first i fresh tokens. */
  lemma {:induction false} RunTokens(script: seq<Outcome>, req: RequestState, depth: nat)
    requires Settles(script) && req.Replayable() && req.Clones()
    ensures var n := LeadingRetries(script); var x := Run(script, req, depth);
      forall i | 0 <= i < |x.sent| :: i <= n && XsrfValues(x.sent[i].header) == XsrfValues(req.header) + Tokens(script, i)
    decreases |script|
  {
    if Retries(script[0]) {
      var next := Retried(req, Token(script[0].res));
      RunRetry(script, req, depth);
      RunTokens(script[1..], next, depth + 1);
      RunTokensRetry(script, req, depth);
    } else {
      RunSettle(script, req, depth);
    }
  }

  /** The step of RunTokens for a retry: the retried request carries one
      token more, so the tokens of the rest of the script follow it. */
  lemma RunTokensRetry(script: seq<Outcome>, req: RequestState, depth: nat)
    requires Settles(script) && req.Replayable() && req.Clones() && Retries(script[0])
    requires Settles(script[1..])
    requires var next := Retried(req, Token(script[0].res)); var rest := Run(script[1..], next, depth + 1);
      forall i | 0 <= i < |rest.sent| ::
        i <= LeadingRetries(script[1..]) && XsrfValues(rest.sent[i].header) == XsrfValues(next.header) + Tokens(script[1..], i)
    ensures var n := LeadingRetries(script); var x := Run(script, req, depth);
      forall i | 0 <= i < |x.sent| :: i <= n && XsrfValues(x.sent[i].header) == XsrfValues(req.header) + Tokens(script, i)
  {
    var t := Token(script[0].res);
    var next := Retried(req, t);
    var rest := Run(script[1..], next, depth + 1);
    var x := Run(script, req, depth);
    RunRetry(script, req, depth);
    assert XsrfValues(next.header) == XsrfValues(req.header) + [t];
    forall i | 1 <= i < |x.sent|
      ensures XsrfValues(x.sent[i].header) == XsrfValues(req.header) + Tokens(script, i)
    {
      assert x.sent[i] == rest.sent[i - 1];
      assert Tokens(script, i) == [t] + Tokens(script[1..], i - 1);
      AppendAssociates(XsrfValues(req.header), [t], Tokens(script[1..], i - 1));
    }
  }

  /** The caller's request ends with the header of the last transmission. */
  lemma {:induction false} RunLastHeader(script: seq<Outcome>, req: RequestState, depth: nat)
    requires Settles(script) && req.Replayable() && req.Clones()
    ensures var x := Run(script, req, depth);
      |x.sent| > 0 && x.after.header == x.sent[|x.sent| - 1].header
    decreases |script|
  {
    if Retries(script[0]) {
      var next := Retried(req, Token(script[0].res));
      RunRetry(script, req, depth);
      RunLastHeader(script[1..], next, depth + 1);
    } else {
      RunSettle(script, req, depth);
    }
  }

  /** No transmission changes any header entry but the token values. */
  lemma {:induction false} RunKeepsOtherHeaders(script: seq<Outcome>, req: RequestState, depth: nat)
    requires Settles(script) && req.Replayable() && req.Clones()
    ensures var x := Run(script, req, depth);
      forall i | 0 <= i < |x.sent| :: x.sent[i].header - {CanonicalKey(XSRF)} == req.header - {CanonicalKey(XSRF)}
    decreases |script|
  {
    if Retries(script[0]) {
      var next := Retried(req, Token(script[0].res));
      RunRetry(script, req, depth);
      RunKeepsOtherHeaders(script[1..], next, depth + 1);
      assert next.header - {CanonicalKey(XSRF)} == req.header - {CanonicalKey(XSRF)};
    } else {
      RunSettle(script, req, depth);
    }
  }

  /** The outcome after the leading retries decides both results, at depth
      + n for the message of a rejection without a token. */
  lemma {:induction false} RunResult(script: seq<Outcome>, req: RequestState, depth: nat)
    requires Settles(script) && req.Replayable() && req.Clones()
    ensures var n := LeadingRetries(script); var x := Run(script, req, depth);
      Settled(script[n], depth + n, x.response, x.err)
    decreases |script|
  {
    if Retries(script[0]) {
      var n := LeadingRetries(script);
      var next := Retried(req, Token(script[0].res));
      var x := Run(script, req, depth);
      var rest := Run(script[1..], next, depth + 1);
      RunRetry(script, req, depth);
      assert x.response == rest.response && x.err == rest.err;
      assert LeadingRetries(script[1..]) == n - 1;
      RunResult(script[1..], next, depth + 1);
      assert script[1..][n - 1] == script[n];
      assert depth + 1 + (n - 1) == depth + n;
    } else {
      var x := Run(script, req, depth);
      RunSettle(script, req, depth);
      assert LeadingRetries(script) == 0;
    }
  }

  /** The caller's request keeps its method, URL and GetBody and ends with
      its body consumed. */
  lemma {:induction false} RunAfter(script: seq<Outcome>, req: RequestState, depth: nat)
    requires Settles(script) && req.Replayable() && req.Clones()
    ensures var x := Run(script, req, depth);
      && x.after.verb == req.verb && x.after.url == req.url && x.after.getBody == req.getBody
      && x.after.body == req.Drain().body
    decreases |script|
  {
    if Retries(script[0]) {
      RunRetry(script, req, depth);
      RunAfter(script[1..], Retried(req, Token(script[0].res)), depth + 1);
    } else {
      RunSettle(script, req, depth);
    }
  }

  /** handle at the depth the code never checks on its retry path: when
      more than MaxDepth rejections in a row bring fresh tokens, the request
      is sent more than MaxDepth + 1 times, and a script of such rejections
      that never settles would never end the call. */
  lemma RetriesPastMaxDepth(script: seq<Outcome>, req: RequestState)
    requires Settles(script) && req.Replayable() && req.Clones()
    requires LeadingRetries(script) > MaxDepth
    ensures |Run(script, req, 0).sent| > MaxDepth + 1
  {
    RunTransmissions(script, req, 0);
  }

  /** handle with the cap that MaxDepth and its "after %d tries" message
      call for: a rejection at depth MaxDepth gives up instead of retrying.
      The script needs an outcome for every request sent: either it settles,
      or it lasts until the cap. */
  function RunCapped(script: seq<Outcome>, req: RequestState, depth: nat): (x: Exchange)
    requires req.Replayable() && depth <= MaxDepth && (Settles(script) || |script| > MaxDepth - depth)
    ensures |x.sent| <= MaxDepth + 1 - depth
    ensures x.err.None? ==> x.response.Some?
    decreases MaxDepth - depth
  {
    match Attempt(script[0], req, depth)
    case Finished(x) => x
    case Resend(w, next) =>
      if depth >= MaxDepth then Exchange(None, Some(Failure(TokenMissing(depth))), [w], req.Drain())
      else
        var rest := RunCapped(script[1..], next, depth + 1);
        rest.(sent := [w] + rest.sent)
  }

  /** Every message for a missing token names the header, and below
      MaxDepth that is all it says. */
  lemma TokenMissingNamesHeader(depth: nat)
    ensures var m := TokenMissing(depth); var head := "Failed to retrieve " + XSRF;
      |m| >= |head| && m[..|head|] == head && (depth < MaxDepth ==> m == head)
  {
  }

  /** The message once MaxDepth retries have been spent. */
  lemma TokenMissingAtMaxDepth()
    ensures TokenMissing(MaxDepth) == "Failed to retrieve X-CSRF-TOKEN after 3 tries"
  {
    assert Itoa(3) == "3" by { assert DigitChar(3) == '3'; }
  }

  /** A capped retry: the request goes out as it is and the capped handle
      carries on one outcome further with the retried request. */
  lemma RunCappedRetry(script: seq<Outcome>, req: RequestState, depth: nat)
    requires req.Replayable() && req.Clones() && depth < MaxDepth && (Settles(script) || |script| > MaxDepth - depth)
    requires Retries(script[0])
    ensures var rest := RunCapped(script[1..], Retried(req, Token(script[0].res)), depth + 1);
      RunCapped(script, req, depth) == rest.(sent := [req.OnWire()] + rest.sent)
  {
  }

  /** At depth MaxDepth the capped handle answers a rejection carrying a
      token with the "after %d tries" error instead of resending. */
  lemma RunCappedLast(script: seq<Outcome>, req: RequestState)
    requires req.Replayable() && req.Clones() && |script| > 0 && Retries(script[0])
    ensures RunCapped(script, req, MaxDepth) == Exchange(None, Some(Failure(TokenMissing(MaxDepth))), [req.OnWire()], req.Drain())
  {
  }

  /** The cap changes nothing for a call that needs no more than the
      retries the cap allows. */
  lemma {:induction false} CappedAgreesBelowCap(script: seq<Outcome>, req: RequestState, depth: nat)
    requires Settles(script) && req.Replayable() && req.Clones() && depth <= MaxDepth
    requires LeadingRetries(script) <= MaxDepth - depth
    ensures RunCapped(script, req, depth) == Run(script, req, depth)
    decreases |script|
  {
    if Retries(script[0]) {
      RunRetry(script, req, depth);
      RunCappedRetry(script, req, depth);
      CappedAgreesBelowCap(script[1..], Retried(req, Token(script[0].res)), depth + 1);
    } else {
      RunFinished(script, req, depth);
    }
  }

  /** With the cap, a server that keeps rejecting with fresh tokens gets
      MaxDepth + 1 requests... */
  lemma {:induction false} CappedSends(script: seq<Outcome>, req: RequestState, depth: nat)
    requires req.Replayable() && req.Clones() && depth <= MaxDepth
    requires LeadingRetries(script) > MaxDepth - depth
    ensures |RunCapped(script, req, depth).sent| == MaxDepth + 1 - depth
    decreases MaxDepth - depth
  {
    if depth < MaxDepth {
      RunCappedRetry(script, req, depth);
      CappedSends(script[1..], Retried(req, Token(script[0].res)), depth + 1);
    } else {
      RunCappedLast(script, req);
    }
  }

  /** ...and then the "after 3 tries" error. */
  lemma {:induction false} CappedGivesUp(script: seq<Outcome>, req: RequestState, depth: nat)
    requires req.Replayable() && req.Clones() && depth <= MaxDepth
    requires LeadingRetries(script) > MaxDepth - depth
    ensures RunCapped(script, req, depth).err == Some(Failure(TokenMissing(MaxDepth)))
    decreases MaxDepth - depth
  {
    if depth < MaxDepth {
      RunCappedRetry(script, req, depth);
      CappedGivesUp(script[1..], Retried(req, Token(script[0].res)), depth + 1);
    } else {
      RunCappedLast(script, req);
    }
  }

  /** An element of a parsed page, with its attributes. */
  datatype Element = Element(tag: string, attrs: map<string, string>)

  /** A parsed page: its elements in document order. */
  datatype Document = Document(elements: seq<Element>)

  predicate IsNamedInput(e: Element, name: string)
  {
    e.tag == "input" && "name" in e.attrs && e.attrs["name"] == name
  }

  /** The first element the selector input[name="..."] matches. */
  function FirstNamedInput(es: seq<Element>, name: string): (r: Option<nat>)
    ensures r.Some? ==> (r.value < |es| && IsNamedInput(es[r.value], name)
                         && forall j | 0 <= j < r.value :: !IsNamedInput(es[j], name))
    ensures r.None? ==> forall j | 0 <= j < |es| :: !IsNamedInput(es[j], name)
  {
    if es == [] then None
    else if IsNamedInput(es[0], name) then Some(0)
    else match FirstNamedInput(es[1..], name)
      case None => None
      case Some(k) => Some(k + 1)
  }

  /** The value attribute of the first matching input, which is what the
      selection's Attr("value") reports; absent when there is no match or
      that first match has no value attribute. */
  function InputValue(doc: Document, name: string): Option<string>
  {
    match FirstNamedInput(doc.elements, name)
    case None => None
    case Some(k) => if "value" in doc.elements[k].attrs then Some(doc.elements[k].attrs["value"]) else None
  }

  function Repeat(v: string, n: nat): (r: seq<string>)
    ensures |r| == n && forall i | 0 <= i < n :: r[i] == v
  {
    if n == 0 then [] else Repeat(v, n - 1) + [v]
  }

  /** The form values gathered from doc for the input names: a name has
      values exactly when its input has one, and then that value once per
      time the name is listed. */
  ghost predicate Harvested(doc: Document, names: seq<string>, values: Values)
  {
    && (forall k :: k in values <==> k in names && InputValue(doc, k).Some?)
    && (forall k | k in values :: values[k] == Repeat(InputValue(doc, k).value, multiset(names)[k]))
  }

  /** getVerificationInputs: parse the page, then add the value of each
      configured input that exists and has one. */
  method GetVerificationInputs(res: Response, parseHtml: string -> Result<Document>) returns (r: Result<Values>)
    ensures parseHtml(res.body).Err? ==> r == Err(Wrapped("Failed to parse body", parseHtml(res.body).error))
    ensures parseHtml(res.body).Ok? ==> r.Ok? && Harvested(parseHtml(res.body).value, VerificationInputs, r.value)
  {
    var parsed := parseHtml(res.body);
    if parsed.Err? {
      return Err(Wrapped("Failed to parse body", parsed.error));
    }
    var doc := parsed.value;
    var inputs: Values := map[];
    for i := 0 to |VerificationInputs|
      invariant Harvested(doc, VerificationInputs[..i], inputs)
    {
      var name := VerificationInputs[i];
      var found := InputValue(doc, name);
      assert VerificationInputs[..i + 1] == VerificationInputs[..i] + [name];
      if found.Some? {
        inputs := AddValue(inputs, name, found.value);
      }
    }
    assert VerificationInputs[..|VerificationInputs|] == VerificationInputs;
    return Ok(inputs);
  }

  lemma AppendAssociates<T>(a: seq<T>, b: seq<T>, c: seq<T>)
    ensures (a + b) + c == a + (b + c)
  {
  }

  class Client {
    /** The outcomes the transport will give, in order. */
    var script: seq<Outcome>
    /** What the transport has sent, in order. */
    var wire: seq<Wire>
    /** The error net/url reports for a URL it cannot parse. */
    const urlError: string -> Option<Error>

    constructor (script: seq<Outcome>, urlError: string -> Option<Error>)
      ensures this.script == script && wire == [] && this.urlError == urlError
    {
      this.script := script;
      this.wire := [];
      this.urlError := urlError;
    }

    /** One round trip through the transport: it takes the next outcome of
        the script and consumes the request's body. */
    method Transmit(req: Request) returns (o: Outcome)
      requires script != []
      modifies this`script, this`wire, req`body
      ensures o == old(script[0]) && script == old(script[1..])
      ensures wire == old(wire) + [old(req.State()).OnWire()]
      ensures req.State() == old(req.State()).Drain()
    {
      o := script[0];
      script := script[1..];
      wire := wire + [req.State().OnWire()];
      if req.body.Some? {
        req.body := Some(Drained);
      }
    }

    /** handle: send req, and resend it at depth + 1 while the server
        rejects its token and supplies a fresh one. */
    method Handle(req: Request, depth: nat) returns (res: Option<Response>, err: Option<Error>)
      requires Settles(script) && req.State().Replayable()
      modifies this`script, this`wire, req`header, req`body
      ensures var x := Run(old(script), old(req.State()), depth);
        && res == x.response && err == x.err && req.State() == x.after
        && wire == old(wire) + x.sent && script == old(script)[|x.sent|..]
      decreases |script|, 0
    {
      ghost var outcomes := script;
      ghost var before := req.State();
      var hasBody := req.body.Some?;
      var clone: Payload := Raw("");
      if hasBody {
        var copy := req.getBody.value;
        if copy.Err? {
          RunFinished(outcomes, before, depth);
          return None, Some(Wrapped("Failed to clone body", copy.error));
        }
        clone := copy.value;
      }
      var o := Transmit(req);
      if o.Failed? {
        RunFinished(outcomes, before, depth);
        return o.partial, Some(o.err);
      }
      var answer := o.res;
      if !IsTokenRejection(answer) {
        RunFinished(outcomes, before, depth);
        return Some(answer), None;
      }
      var token := GetHeader(answer.header, XSRF);
      if token == "" {
        RunFinished(outcomes, before, depth);
        if depth >= MaxDepth {
          return None, Some(Failure("Failed to retrieve " + XSRF + " after " + Itoa(depth) + " tries"));
        } else {
          return None, Some(Failure("Failed to retrieve " + XSRF));
        }
      }
      RunRetry(outcomes, before, depth);
      res, err := Resend(req, depth, token, if hasBody then Some(clone) else None, before);
      AppendAssociates(old(wire), [before.OnWire()], Run(outcomes[1..], Retried(before, token), depth + 1).sent);
    }

    /** The tail of handle after a rejection that carried a token: add the
        token to the header, put the copied body back and handle the request
        again at depth + 1. */
    method Resend(req: Request, depth: nat, token: string, clone: Option<Payload>, ghost before: RequestState)
      returns (res: Option<Response>, err: Option<Error>)
      requires before.Clones() && req.State() == before.Drain() && Settles(script)
      requires clone.Some? <==> before.body.Some?
      requires clone.Some? ==> before.getBody.value == Ok(clone.value)
      modifies this`script, this`wire, req`header, req`body
      ensures var x := Run(old(script), Retried(before, token), depth + 1);
        && res == x.response && err == x.err && req.State() == x.after
        && wire == old(wire) + x.sent && script == old(script)[|x.sent|..]
      decreases |script|, 1
    {
      req.header := AddHeader(req.header, XSRF, token);
      if clone.Some? {
        req.body := Some(Unread(clone.value));
      }
      assert req.State() == Retried(before, token);
      res, err := Handle(req, depth + 1);
    }

    /** Do: handle from depth 0. */
    method Do(req: Request) returns (res: Option<Response>, err: Option<Error>)
      requires Settles(script) && req.State().Replayable()
      modifies this`script, this`wire, req`header, req`body
      ensures var x := Run(old(script), old(req.State()), 0);
        && res == x.response && err == x.err && req.State() == x.after
        && wire == old(wire) + x.sent && script == old(script)[|x.sent|..]
    {
      res, err := Handle(req, 0);
    }

    /** Get: a body-less GET through handle from depth 0. */
    method Get(url: string) returns (res: Option<Response>, err: Option<Error>)
      requires urlError(url).None? ==> Settles(script)
      modifies this`script, this`wire
      ensures urlError(url).Some? ==>
        res == None && err == Some(Wrapped("Failed to create request", urlError(url).value))
        && script == old(script) && wire == old(wire)
      ensures urlError(url).None? ==>
        var x := Run(old(script), RequestState("GET", url, map[], None, None), 0);
        && res == x.response && err == x.err
        && wire == old(wire) + x.sent && script == old(script)[|x.sent|..]
    {
      if urlError(url).Some? {
        return None, Some(Wrapped("Failed to create request", urlError(url).value));
      }
      var req := new Request("GET", url, None);
      res, err := Do(req);
    }

    /** Post: a POST of payload with the given Content-Type, through handle
        from depth 0. */
    method Post(url: string, contentType: string, payload: Payload) returns (res: Option<Response>, err: Option<Error>)
      requires urlError(url).None? ==> Settles(script)
      modifies this`script, this`wire
      ensures urlError(url).Some? ==>
        res == None && err == Some(Wrapped("Failed to create request", urlError(url).value))
        && script == old(script) && wire == old(wire)
      ensures urlError(url).None? ==>
        var x := Run(old(script), PostRequest(url, contentType, payload), 0);
        && res == x.response && err == x.err
        && wire == old(wire) + x.sent && script == old(script)[|x.sent|..]
    {
      if urlError(url).Some? {
        return None, Some(Wrapped("Failed to create request", urlError(url).value));
      }
      var req := new Request("POST", url, Some(payload));
      req.header := SetHeader(req.header, "Content-Type", contentType);
      res, err := Do(req);
    }

    /** PostForm: Post of the encoded form values as
        application/x-www-form-urlencoded. */
    method PostForm(url: string, data: Values) returns (res: Option<Response>, err: Option<Error>)
      requires urlError(url).None? ==> Settles(script)
      modifies this`script, this`wire
      ensures urlError(url).Some? ==>
        res == None && err == Some(Wrapped("Failed to create request", urlError(url).value))
        && script == old(script) && wire == old(wire)
      ensures urlError(url).None? ==>
        var x := Run(old(script), PostRequest(url, FormContentType, Form(data)), 0);
        && res == x.response && err == x.err
        && wire == old(wire) + x.sent && script == old(script)[|x.sent|..]
    {
      res, err := Post(url, FormContentType, Form(data));
    }

    /** NewVerifiedRequest: GET the page at from (url when from is empty)
        through handle, and build a POST to url whose body is the form of the
        verification inputs found there, with the page's
        __RequestVerificationToken header copied when it is not empty. */
    method NewVerifiedRequest(url: string, from: string, parseHtml: string -> Result<Document>)
      returns (req: Request?, err: Option<Error>)
      requires urlError(if from == "" then url else from).None? ==> Settles(script)
      modifies this`script, this`wire
      ensures err.None? <==> req != null
      ensures req != null ==> fresh(req)
      ensures var source := if from == "" then url else from;
        urlError(source).Some? ==>
          err == Some(Wrapped("Failed to create initial verification retrieval request", urlError(source).value))
          && script == old(script) && wire == old(wire)
      ensures var source := if from == "" then url else from;
        urlError(source).None? ==>
          var x := Run(old(script), RequestState("GET", source, map[], None, None), 0);
          && wire == old(wire) + x.sent && script == old(script)[|x.sent|..]
          && (x.err.Some? ==> err == Some(Wrapped("Initial verification retrieval request failed", x.err.value)))
          && (x.err.None? ==> Verified(url, x.response.value, parseHtml, urlError, req, err))
    {
      var source := if from == "" then url else from;
      if urlError(source).Some? {
        return null, Some(Wrapped("Failed to create initial verification retrieval request", urlError(source).value));
      }
      var initial := new Request("GET", source, None);
      var res, e := Handle(initial, 0);
      if e.Some? {
        return null, Some(Wrapped("Initial verification retrieval request failed", e.value));
      }
      req, err := Prepare(url, res.value, parseHtml);
    }

    /** The second half of NewVerifiedRequest, once the page has come back:
        gather the verification inputs, create the POST to url and set its
        headers. */
    method Prepare(url: string, page: Response, parseHtml: string -> Result<Document>)
      returns (req: Request?, err: Option<Error>)
      ensures err.None? <==> req != null
      ensures Verified(url, page, parseHtml, urlError, req, err)
      ensures req != null ==> fresh(req)
    {
      var form := GetVerificationInputs(page, parseHtml);
      if form.Err? {
        return null, Some(Wrapped("Failed to get verification inputs", form.error));
      }
      if urlError(url).Some? {
        return null, Some(Wrapped("Failed to create request", urlError(url).value));
      }
      req := new Request("POST", url, Some(Form(form.value)));
      var header := GetHeader(page.header, VerificationInputs[0]);
      if header != "" {
        req.header := SetHeader(req.header, VerificationInputs[0], header);
      }
      req.header := SetHeader(req.header, "Content-Type", FormContentType);
      err := None;
    }
  }

  /** The request Post builds before handing it to handle. */
  function PostRequest(url: string, contentType: string, payload: Payload): RequestState
  {
    RequestState("POST", url, SetHeader(map[], "Content-Type", contentType),
                  Some(Unread(payload)), Some(Ok(payload)))
  }

  /** The header of a verified request: the page's token header when it is
      not empty, and the form Content-Type. */
  function VerifiedHeader(page: Response): Header
  {
    var token := GetHeader(page.header, VerificationInputs[0]);
    var h: Header := if token != "" then SetHeader(map[], VerificationInputs[0], token) else map[];
    SetHeader(h, "Content-Type", FormContentType)
  }

  /** What NewVerifiedRequest makes of the page its GET brought back. */
  ghost predicate Verified(url: string, page: Response, parseHtml: string -> Result<Document>,
                           urlError: string -> Option<Error>, req: Request?, err: Option<Error>)
    reads req
  {
    match parseHtml(page.body)
    case Err(e) => err == Some(Wrapped("Failed to get verification inputs", Wrapped("Failed to parse body", e)))
    case Ok(doc) =>
      if urlError(url).Some? then err == Some(Wrapped("Failed to create request", urlError(url).value))
      else
        && req != null && err == None
        && req.verb == "POST" && req.url == url
        && req.header == VerifiedHeader(page)
        && req.body.Some? && req.body.value.Unread? && req.body.value.payload.Form?
        && req.getBody == Some(Ok(req.body.value.payload))
        && Harvested(doc, VerificationInputs, req.body.value.payload.values)
  }
}

=== FILE: conversions.dfy ===
/** The text conversions the client relies on: Go's strconv.Itoa,
    strconv.Atoi and strconv.FormatBool, and the conversion string(x) of
    an integer x, which yields a code point rather than digits. Go's int is
    64 bits wide on the platforms the client targets. */
module Conversions {
  import opened Errors

  const MinInt64: int := -0x8000_0000_0000_0000
  const MaxInt64: int := 0x7FFF_FFFF_FFFF_FFFF
  const MaxUint64: int := 0xFFFF_FFFF_FFFF_FFFF

  /** Go's int on a 64-bit platform. */
  newtype int64 = x: int | -0x8000_0000_0000_0000 <= x <= 0x7FFF_FFFF_FFFF_FFFF

  predicate IsDigit(c: char) { '0' <= c <= '9' }

  predicate AllDigits(s: string) { forall i | 0 <= i < |s| :: IsDigit(s[i]) }

  function DigitValue(c: char): nat
    requires IsDigit(c)
  {
    c as int - '0' as int
  }

  function DigitChar(d: nat): (c: char)
    requires d < 10
    ensures IsDigit(c) && DigitValue(c) == d
  {
    ('0' as int + d) as char
  }

  /** The value of a string of decimal digits, most significant digit first. */
  function Value(s: string): nat
    requires AllDigits(s)
  {
    if s == [] then 0 else Value(s[..|s| - 1]) * 10 + DigitValue(s[|s| - 1])
  }

  /** The shortest decimal rendering of n. */
  function Digits(n: nat): (s: string)
    ensures |s| > 0 && AllDigits(s)
    ensures |s| == 1 <==> n < 10
    ensures s[0] == '0' ==> n == 0
  {
    if n < 10 then [DigitChar(n)] else Digits(n / 10) + [DigitChar(n % 10)]
  }

  lemma {:induction false} ValueOfDigits(n: nat)
    ensures Value(Digits(n)) == n
  {
    if n >= 10 {
      var s := Digits(n);
      ValueOfDigits(n / 10);
      assert s[..|s| - 1] == Digits(n / 10);
    }
  }

  /** strconv.Itoa: an optional minus sign, then the shortest digits. */
  function Itoa(n: int): (s: string)
    ensures |s| > 0
    ensures forall i | 0 <= i < |s| :: s[i] == '-' || IsDigit(s[i])
    ensures s[0] == '-' <==> n < 0
  {
    if n < 0 then "-" + Digits(-n) else Digits(n)
  }

  /** The text after an optional leading sign. */
  function Unsigned(s: string): string
  {
    if |s| > 0 && (s[0] == '-' || s[0] == '+') then s[1..] else s
  }

  /** What strconv.Atoi accepts syntactically: an optional sign, then at
      least one ASCII digit. */
  predicate WellFormed(s: string)
  {
    Unsigned(s) != [] && AllDigits(Unsigned(s))
  }

  function SignedValue(s: string): int
    requires WellFormed(s)
  {
    if s[0] == '-' then -(Value(Unsigned(s)) as int) else Value(Unsigned(s))
  }

  /** The progress of strconv.ParseUint over the digits of a base-10 number. */
  datatype Scan = Scanned(n: nat) | Rejected(reason: NumReason)

  /** ParseUint stops with a range error once the next digit cannot fit. */
  const Cutoff: int := MaxUint64 / 10 + 1

  /** Scans s from index i with acc accumulated so far: the first
      non-digit is a syntax error, and overflowing 64 unsigned bits is a
      range error, whichever comes first. */
  function ScanUint(s: string, i: nat, acc: nat): Scan
    requires i <= |s|
    decreases |s| - i
  {
    if i == |s| then Scanned(acc)
    else if !IsDigit(s[i]) then Rejected(InvalidSyntax)
    else if acc >= Cutoff then Rejected(OutOfRange)
    else if acc * 10 + DigitValue(s[i]) > MaxUint64 then Rejected(OutOfRange)
    else ScanUint(s, i + 1, acc * 10 + DigitValue(s[i]))
  }

  lemma {:induction false} ValuePrefix(s: string, i: nat)
    requires AllDigits(s) && i <= |s|
    ensures Value(s[..i]) <= Value(s)
    decreases |s| - i
  {
    if i < |s| {
      ValuePrefix(s, i + 1);
      assert s[..i + 1][..i] == s[..i];
      assert Value(s[..i + 1]) == Value(s[..i]) * 10 + DigitValue(s[i]);
    } else {
      assert s[..i] == s;
    }
  }

  lemma {:induction false} ScanDigits(s: string, i: nat, acc: nat)
    requires AllDigits(s) && i <= |s| && acc == Value(s[..i]) && acc <= MaxUint64
    ensures ScanUint(s, i, acc) == if Value(s) <= MaxUint64 then Scanned(Value(s)) else Rejected(OutOfRange)
    decreases |s| - i
  {
    if i == |s| {
      assert s[..i] == s;
    } else {
      var next := acc * 10 + DigitValue(s[i]);
      assert s[..i + 1][..i] == s[..i];
      assert Value(s[..i + 1]) == next;
      ValuePrefix(s, i + 1);
      if acc >= Cutoff || next > MaxUint64 {
        assert next > MaxUint64;
      } else {
        ScanDigits(s, i + 1, next);
      }
    }
  }

  lemma {:induction false} ScanRejects(s: string, i: nat, acc: nat, j: nat)
    requires i <= j < |s| && !IsDigit(s[j])
    ensures ScanUint(s, i, acc).Rejected?
    decreases |s| - i
  {
    if i < j && IsDigit(s[i]) && acc < Cutoff && acc * 10 + DigitValue(s[i]) <= MaxUint64 {
      ScanRejects(s, i + 1, acc * 10 + DigitValue(s[i]), j);
    }
  }

  /** strconv.Atoi on a 64-bit platform: accepted exactly when the text is
      an optional sign and digits whose value fits in 64 signed bits. */
  function Atoi(s: string): (r: Result<int64>)
    ensures r.Ok? <==> WellFormed(s) && MinInt64 <= SignedValue(s) <= MaxInt64
    ensures r.Ok? ==> r.value as int == SignedValue(s)
    ensures r.Err? ==> r.error.NumError? && r.error.func == "Atoi" && r.error.num == s
  {
    var neg := |s| > 0 && s[0] == '-';
    var body := Unsigned(s);
    if body == [] then Err(NumError("Atoi", s, InvalidSyntax))
    else
      var scan := ScanUint(body, 0, 0);
      if scan.Rejected? then
        (if AllDigits(body) then assert body[..0] == []; ScanDigits(body, 0, 0); Err(NumError("Atoi", s, scan.reason))
         else Err(NumError("Atoi", s, scan.reason)))
      else
        assert AllDigits(body) by {
          if !AllDigits(body) {
            var j :| 0 <= j < |body| && !IsDigit(body[j]);
            ScanRejects(body, 0, 0, j);
          }
        }
        assert body[..0] == [];
        ScanDigits(body, 0, 0);
        if neg && scan.n > -MinInt64 then Err(NumError("Atoi", s, OutOfRange))
        else if !neg && scan.n > MaxInt64 then Err(NumError("Atoi", s, OutOfRange))
        else Ok((if neg then -(scan.n as int) else scan.n as int) as int64)
  }

  /** Reading back what Itoa writes gives the number again. */
  lemma AtoiItoa(n: int64)
    ensures Atoi(Itoa(n as int)) == Ok(n)
  {
    var m: nat := if n < 0 then -(n as int) else n as int;
    ValueOfDigits(m);
    assert Unsigned(Itoa(n as int)) == Digits(m);
  }

  /** strconv.FormatBool */
  function FormatBool(b: bool): (s: string)
    ensures s == "true" <==> b
    ensures !b ==> s == "false"
  {
    if b then "true" else "false"
  }

  /** A Unicode scalar value: a code point that is not a surrogate. */
  predicate IsScalar(x: int)
  {
    0 <= x < 0xD800 || 0xE000 <= x <= 0x10FFFF
  }

  /** Go's string(x) for an integer x: the single character whose code
      point is x, or U+FFFD when x is not a scalar value. */
  function CodePointString(x: int): (s: string)
    ensures |s| == 1
    ensures s[0] as int == if IsScalar(x) then x else 0xFFFD
  {
    if IsScalar(x) then [x as char] else ['\U{FFFD}']
  }

  /** string(x) never renders x in decimal: no integer x converted this
      way reads back as x, whereas Itoa always does (AtoiItoa). */
  lemma CodePointIsNotDecimal(x: int64)
    ensures CodePointString(x as int) != Itoa(x as int)
    ensures Atoi(CodePointString(x as int)) != Ok(x)
  {
    var s := CodePointString(x as int);
    if Atoi(s).Ok? {
      assert WellFormed(s);
      assert Unsigned(s) == s;
      assert s[..0] == [];
      assert Value(s) == s[0] as int - '0' as int;
    }
    if x < 0 {
      assert Itoa(x as int)[0] == '-';
    } else if x < 10 {
      assert Itoa(x as int)[0] as int == '0' as int + x as int;
    } else {
      assert |Itoa(x as int)| > 1;
    }
  }
}

=== FILE: errors.dfy ===
/** Error values and the Option/Result wrappers used across the model.
    Errors mirror github.com/pkg/errors: a leaf message (errors.New,
    errors.Errorf, or the text of an error raised by a library the model
    treats as opaque), a message wrapped with context (errors.Wrap,
    errors.Wrapf, rendered "context: cause"), and the strconv.NumError
    that a failed decimal parse reports. */
module Errors {

  /** Why strconv rejected a number. */
  datatype NumReason = InvalidSyntax | OutOfRange

  datatype Error =
    | Failure(message: string)
    | Wrapped(context: string, cause: Error)
    | NumError(func: string, num: string, reason: NumReason)

  datatype Option<+T> = None | Some(value: T)

  datatype Result<+T> = Ok(value: T) | Err(error: Error)
}

=== FILE: http.dfy ===
/** The parts of Go's net/http and net/url the client uses on headers and
    form values. A header is a multimap from canonical keys to values:
    Get, Set and Add canonicalize the key first (textproto's
    CanonicalMIMEHeaderKey). url.Values is the same multimap shape with keys
    used as given. */
module Http {

  type Header = map<string, seq<string>>

  type Values = map<string, seq<string>>

  /** The characters allowed in a header field name (RFC 7230 tchar). */
  predicate IsTokenChar(c: char)
  {
    ('a' <= c <= 'z') || ('A' <= c <= 'Z') || ('0' <= c <= '9') || c in "!#$%&'*+-.^_`|~"
  }

  predicate IsToken(s: string)
  {
    forall i | 0 <= i < |s| :: IsTokenChar(s[i])
  }

  function Upper(c: char): char
  {
    if 'a' <= c <= 'z' then (c as int - 32) as char else c
  }

  function Lower(c: char): char
  {
    if 'A' <= c <= 'Z' then (c as int + 32) as char else c
  }

  /** The case a canonical key gives the character at i: upper at the
      start of the key and after a hyphen, lower everywhere else. */
  function FoldAt(k: string, i: nat): char
    requires i < |k|
  {
    if i == 0 || k[i - 1] == '-' then Upper(k[i]) else Lower(k[i])
  }

  /** textproto.CanonicalMIMEHeaderKey: each word of the key starts upper
      case and goes on lower case; a key holding a character that is not
      allowed in a field name is left as it is. */
  function CanonicalKey(k: string): (r: string)
    ensures |r| == |k|
    ensures !IsToken(k) ==> r == k
  {
    if IsToken(k) then seq(|k|, i requires 0 <= i < |k| => FoldAt(k, i)) else k
  }

  /** A key made of field-name characters is folded character by
      character. */
  lemma CanonicalKeyFolds(k: string)
    requires IsToken(k)
    ensures forall i | 0 <= i < |k| :: CanonicalKey(k)[i] == FoldAt(k, i)
  {
  }

  /** Two characters that agree once lower-cased are the same letter in
      either case, or the same character. */
  lemma SameLetter(c: char, d: char)
    requires Lower(c) == Lower(d)
    ensures Upper(c) == Upper(d) && (IsTokenChar(c) <==> IsTokenChar(d)) && (c == '-' <==> d == '-')
  {
  }

  /** Header keys ignore case: field names that differ only in the case of
      their letters have one canonical key, so they reach one entry. (A key
      that is not a field name is kept as it is, case and all.) */
  lemma CanonicalKeyIgnoresCase(a: string, b: string)
    requires IsToken(a) && |a| == |b| && forall i | 0 <= i < |a| :: Lower(a[i]) == Lower(b[i])
    ensures CanonicalKey(a) == CanonicalKey(b)
  {
    forall i | 0 <= i < |a| ensures Upper(a[i]) == Upper(b[i]) && (IsTokenChar(a[i]) <==> IsTokenChar(b[i])) {
      SameLetter(a[i], b[i]);
    }
    assert IsToken(b);
    CanonicalKeyFolds(a);
    CanonicalKeyFolds(b);
    forall i | 0 <= i < |a| ensures FoldAt(a, i) == FoldAt(b, i) {
      if i > 0 {
        SameLetter(a[i - 1], b[i - 1]);
      }
    }
  }

  /** Canonicalizing twice is canonicalizing once: a canonical key is its
      own canonical form. */
  lemma CanonicalKeyIdempotent(k: string)
    ensures CanonicalKey(CanonicalKey(k)) == CanonicalKey(k)
  {
    var c := CanonicalKey(k);
    if IsToken(k) {
      CanonicalKeyFolds(k);
      assert IsToken(c) by {
        forall i | 0 <= i < |c| ensures IsTokenChar(c[i]) {
          assert IsTokenChar(k[i]);
        }
      }
      CanonicalKeyFolds(c);
      forall i | 0 <= i < |c| ensures FoldAt(c, i) == c[i] {
        if i > 0 {
          assert c[i - 1] == '-' <==> k[i - 1] == '-';
        }
      }
    }
  }

  /** Header.Get: the first value stored under the canonical key, or "". */
  function GetHeader(h: Header, k: string): (v: string)
    ensures v != "" ==> CanonicalKey(k) in h && h[CanonicalKey(k)] != [] && h[CanonicalKey(k)][0] == v
    ensures (CanonicalKey(k) !in h || h[CanonicalKey(k)] == []) ==> v == ""
    ensures CanonicalKey(k) in h && h[CanonicalKey(k)] != [] ==> v == h[CanonicalKey(k)][0]
  {
    var ck := CanonicalKey(k);
    if ck in h && |h[ck]| > 0 then h[ck][0] else ""
  }

  /** Header.Set: the canonical key now holds v alone. */
  function SetHeader(h: Header, k: string, v: string): (r: Header)
    ensures CanonicalKey(k) in r && r[CanonicalKey(k)] == [v]
    ensures r - {CanonicalKey(k)} == h - {CanonicalKey(k)}
  {
    h[CanonicalKey(k) := [v]]
  }

  /** Header.Add: v is appended after the values already under the key. */
  function AddHeader(h: Header, k: string, v: string): (r: Header)
    ensures CanonicalKey(k) in r
    ensures r[CanonicalKey(k)] == (if CanonicalKey(k) in h then h[CanonicalKey(k)] else []) + [v]
    ensures r - {CanonicalKey(k)} == h - {CanonicalKey(k)}
  {
    var ck := CanonicalKey(k);
    h[ck := (if ck in h then h[ck] else []) + [v]]
  }

  /** url.Values.Set */
  function SetValue(values: Values, k: string, v: string): (r: Values)
    ensures k in r && r[k] == [v]
    ensures r - {k} == values - {k}
  {
    values[k := [v]]
  }

  /** url.Values.Add */
  function AddValue(values: Values, k: string, v: string): (r: Values)
    ensures k in r && r[k] == (if k in values then values[k] else []) + [v]
    ensures r - {k} == values - {k}
  {
    values[k := (if k in values then values[k] else []) + [v]]
  }
}

=== FILE: transaction.dfy ===
/** The transaction feed of user/transaction.go: GetTransactions posts a
    page request through the client and maps the rows of the reply to
    transactions, Transaction.String renders one, and syncSales walks the
    pages from the newest on, sending the transactions newer than a mark.

    JSON decoding and time.Parse are the functions of a Codec; the
    leftmost match of the item URL pattern is written out. */
module Transactions {
  import opened Errors
  import opened Conversions
  import Client

  datatype TransactionType = Sale | Purchase

  datatype RobloxUser = RobloxUser(id: int64, name: string)

  datatype RobloxItem = RobloxItem(id: int64, name: string)

  /** What time.Parse("1/2/06") yields is midnight UTC of a day, so the day
      is all a transaction keeps of its time. */
  datatype Date = Date(year: nat, month: nat, day: nat)

  datatype Transaction = Transaction(id: int64, date: Date, user: RobloxUser, item: RobloxItem,
                                     amount: int64, kind: TransactionType)

  /** One row of the reply, as its JSON object decodes. */
  datatype Row = Row(amount: string, date: string, itemName: string, itemUrl: string,
                     member: string, memberId: string, saleId: int64)

  /** The decoders GetTransactions uses: the reply envelope, the list of
      rows inside its "d" member, one row, and a "1/2/06" date. */
  datatype Codec = Codec(envelope: string -> Result<map<string, string>>,
                         rows: string -> Result<seq<string>>,
                         row: string -> Result<Row>,
                         date: string -> Result<Date>)

  // ---------------------------------------------------------------------
  // Transaction.String

  function Zeros(n: nat): (s: string)
    ensures |s| == n && forall i | 0 <= i < n :: s[i] == '0'
  {
    if n == 0 then "" else Zeros(n - 1) + "0"
  }

  /** The time package's appendInt for a non-negative x: its digits,
      zero-padded on the left to width. */
  function Padded(x: nat, width: nat): (s: string)
    ensures |s| == if |Digits(x)| < width then width else |Digits(x)|
    ensures s[|s| - |Digits(x)|..] == Digits(x)
    ensures forall i | 0 <= i < |s| - |Digits(x)| :: s[i] == '0'
  {
    var d := Digits(x);
    (if |d| < width then Zeros(width - |d|) else "") + d
  }

  /** Date.Format("2006-01-02"). */
  function FormatDate(d: Date): string
  {
    Padded(d.year, 4) + "-" + Padded(d.month, 2) + "-" + Padded(d.day, 2)
  }

  function Verb(kind: TransactionType): string
  {
    if kind == Purchase then "Purchased" else "Sold"
  }

  function Direction(kind: TransactionType): string
  {
    if kind == Purchase then "from" else "to"
  }

  /** The transaction's ID in brackets and the verb. */
  function Opening(t: Transaction): string
  {
    "[" + Itoa(t.id as int) + "] " + Verb(t.kind)
  }

  /** The item, by name and ID. */
  function ItemPart(t: Transaction): string
  {
    " item " + t.item.name + " (" + Itoa(t.item.id as int) + ") "
  }

  /** The direction, the other party, the amount and the date. */
  function Counterpart(t: Transaction): string
  {
    Direction(t.kind) + Party(t)
  }

  /** The other party, the amount and the date. */
  function Party(t: Transaction): string
  {
    " " + t.user.name + " (" + Itoa(t.user.id as int) + ") for " + Itoa(t.amount as int) + Stamp(t.date)
  }

  /** The close of every description: the currency and the date. */
  function Stamp(d: Date): string
  {
    " robux @ " + FormatDate(d)
  }

  /** Transaction.String: "[id] Purchased item name (id) from user (id)
      for amount robux @ date" for a purchase, "Sold ... to ..." for any
      other kind. */
  function Describe(t: Transaction): (s: string)
    ensures |s| > |Stamp(t.date)| && s[0] == '['
    ensures s[|s| - |Stamp(t.date)|..] == Stamp(t.date)
  {
    var head := Opening(t) + ItemPart(t);
    var p := Party(t);
    var front := p[..|p| - |Stamp(t.date)|];
    assert p == front + Stamp(t.date);
    EndsWith(head + Direction(t.kind), front, Stamp(t.date));
    head + Counterpart(t)
  }

  lemma EndsWith<T>(a: seq<T>, b: seq<T>, c: seq<T>)
    ensures |a + (b + c)| - |c| >= 0 && (a + (b + c))[|a + (b + c)| - |c|..] == c
  {
  }

  lemma SliceOfPrefix<T>(a: seq<T>, b: seq<T>, i: nat, j: nat)
    requires i <= j <= |a|
    ensures (a + b)[i..j] == a[i..j]
  {
  }

  /** A description starts with the transaction ID in brackets, which reads
      back as the ID. */
  lemma DescribeReadsBackId(t: Transaction)
    ensures var h := |Itoa(t.id as int)|; var s := Describe(t);
      h + 1 < |s| && s[0] == '[' && s[h + 1] == ']' && Atoi(s[1..h + 1]) == Ok(t.id)
  {
    var id := Itoa(t.id as int);
    var h := |id|;
    var b := "[" + id;
    var o := Opening(t);
    SliceOfPrefix(o + ItemPart(t), Counterpart(t), 1, h + 1);
    SliceOfPrefix(o, ItemPart(t), 1, h + 1);
    SliceOfPrefix(b + "] ", Verb(t.kind), 1, h + 1);
    SliceOfPrefix(b, "] ", 1, h + 1);
    assert b[1..h + 1] == id;
    AtoiItoa(t.id);
  }

  /** The verb follows the ID, and it starts with 'P' exactly for a
      purchase. */
  lemma DescribeVerb(t: Transaction)
    ensures var h := |Itoa(t.id as int)|; var s := Describe(t);
      && h + 3 + |Verb(t.kind)| <= |s|
      && s[h + 3..h + 3 + |Verb(t.kind)|] == Verb(t.kind)
      && (s[h + 3] == 'P' <==> t.kind == Purchase)
  {
    var h := |Itoa(t.id as int)|;
    var o := Opening(t);
    var s := Describe(t);
    assert s[..|o|] == o;
    assert o[h + 3..] == Verb(t.kind);
  }

  /** After the item's ID the description names the direction: "from" the
      other party for a purchase, "to" it otherwise. */
  lemma DescribeDirection(t: Transaction)
    ensures var k := |Opening(t)| + |ItemPart(t)|; var s := Describe(t);
      && k + |Direction(t.kind)| <= |s| && s[k..k + |Direction(t.kind)|] == Direction(t.kind)
      && (s[k] == 'f' <==> t.kind == Purchase)
  {
    var k := |Opening(t)| + |ItemPart(t)|;
    var c := Counterpart(t);
    assert Describe(t)[k..] == c;
    assert c[..|Direction(t.kind)|] == Direction(t.kind);
  }

  // ---------------------------------------------------------------------
  // The item URL pattern https://www\.roblox\.com/library/(\d+)/

  const LibraryPrefix := "https://www.roblox.com/library/"

  /** Where the run of ASCII digits that starts at j ends. */
  function DigitRunEnd(s: string, j: nat): (k: nat)
    requires j <= |s|
    ensures j <= k <= |s|
    ensures forall m | j <= m < k :: IsDigit(s[m])
    ensures k < |s| ==> !IsDigit(s[k])
    decreases |s| - j
  {
    if j < |s| && IsDigit(s[j]) then DigitRunEnd(s, j + 1) else j
  }

  /** The pattern matches at i: the literal prefix, at least one digit,
      then "/". The greedy \d+ can only give way to "/" at the end of the
      digit run, so the run is the group. */
  predicate MatchesAt(s: string, i: nat)
  {
    && i + |LibraryPrefix| <= |s|
    && s[i..i + |LibraryPrefix|] == LibraryPrefix
    && var k := DigitRunEnd(s, i + |LibraryPrefix|);
       k > i + |LibraryPrefix| && k < |s| && s[k] == '/'
  }

  /** The first position from i on where the pattern matches. */
  function Leftmost(s: string, i: nat): (r: Option<nat>)
    requires i <= |s|
    ensures r.Some? ==> i <= r.value < |s| && MatchesAt(s, r.value)
    ensures r.Some? ==> forall j | i <= j < r.value :: !MatchesAt(s, j)
    ensures r.None? ==> forall j | i <= j < |s| :: !MatchesAt(s, j)
    decreases |s| - i
  {
    if i == |s| then None else if MatchesAt(s, i) then Some(i) else Leftmost(s, i + 1)
  }

  /** regexp.FindStringSubmatch: the leftmost match and its group, or no
      strings at all when the URL does not match. */
  function FindSubmatch(s: string): (m: seq<string>)
    ensures |m| == 0 || |m| == 2
    ensures |m| == 0 <==> forall i | 0 <= i < |s| :: !MatchesAt(s, i)
    ensures |m| == 2 ==> m[1] != "" && AllDigits(m[1])
    ensures |m| == 2 ==>
      && Leftmost(s, 0).Some?
      && m[1] == s[Leftmost(s, 0).value + |LibraryPrefix|..DigitRunEnd(s, Leftmost(s, 0).value + |LibraryPrefix|)]
  {
    var l := Leftmost(s, 0);
    if l.None? then []
    else
      var i := l.value;
      assert MatchesAt(s, i);
      var j := i + |LibraryPrefix|;
      var k := DigitRunEnd(s, j);
      [s[i..k + 1], s[j..k]]
  }

  /** The URL of an item's library page yields the item's ID back. */
  lemma ItemUrlRoundTrip(id: int64, rest: string)
    requires id >= 0
    ensures var m := FindSubmatch(LibraryPrefix + Itoa(id as int) + "/" + rest);
      |m| == 2 && m[1] == Itoa(id as int) && Atoi(m[1]) == Ok(id)
  {
    var d := Itoa(id as int);
    var s := LibraryPrefix + d + "/" + rest;
    var j := |LibraryPrefix|;
    var k := DigitRunEnd(s, j);
    assert s[j..j + |d|] == d;
    assert s[j + |d|] == '/';
    assert k == j + |d|;
    assert s[0..j] == LibraryPrefix;
    assert MatchesAt(s, 0);
    AtoiItoa(id);
  }

  // ---------------------------------------------------------------------
  // Rows to transactions

  /** amount * -1 on Go's 64-bit int: the one value without a negation
      wraps around to itself. */
  function Negate(a: int64): (r: int64)
    ensures a as int != MinInt64 ==> r as int == -(a as int)
    ensures a as int == MinInt64 ==> r == a
  {
    if a as int == MinInt64 then a else -a
  }

  /** The fields of a decoded row, checked and converted in the order the
      loop of GetTransactions takes them. */
  function ToTransaction(row: Row, kind: TransactionType, parseDate: string -> Result<Date>): (r: Result<Transaction>)
    ensures Atoi(row.memberId).Err? ==> r == Err(Wrapped("Failed to parse user ID", Atoi(row.memberId).error))
    ensures Atoi(row.memberId).Ok? && |FindSubmatch(row.itemUrl)| != 2 ==>
      r == Err(Failure("regex match failed: unknown number of matches " + Itoa(0)))
    ensures Atoi(row.memberId).Ok? && |FindSubmatch(row.itemUrl)| == 2 && Atoi(FindSubmatch(row.itemUrl)[1]).Err? ==>
      r == Err(Wrapped("Failed to parse item ID", Atoi(FindSubmatch(row.itemUrl)[1]).error))
    ensures Atoi(row.memberId).Ok? && |FindSubmatch(row.itemUrl)| == 2 && Atoi(FindSubmatch(row.itemUrl)[1]).Ok?
            && Atoi(row.amount).Err? ==>
      r == Err(Wrapped("Failed to parse amount", Atoi(row.amount).error))
    ensures Atoi(row.memberId).Ok? && |FindSubmatch(row.itemUrl)| == 2 && Atoi(FindSubmatch(row.itemUrl)[1]).Ok?
            && Atoi(row.amount).Ok? && parseDate(row.date).Err? ==>
      r == Err(Wrapped("Failed to parse date", parseDate(row.date).error))
    ensures r.Ok? <==>
      && Atoi(row.memberId).Ok? && |FindSubmatch(row.itemUrl)| == 2
      && Atoi(FindSubmatch(row.itemUrl)[1]).Ok? && Atoi(row.amount).Ok? && parseDate(row.date).Ok?
    ensures r.Ok? ==>
      && r.value.id == row.saleId && r.value.kind == kind && r.value.date == parseDate(row.date).value
      && r.value.user == RobloxUser(Atoi(row.memberId).value, row.member)
      && r.value.item == RobloxItem(Atoi(FindSubmatch(row.itemUrl)[1]).value, row.itemName)
      && r.value.amount == if kind == Purchase then Negate(Atoi(row.amount).value) else Atoi(row.amount).value
  {
    match Atoi(row.memberId)
    case Err(e) => Err(Wrapped("Failed to parse user ID", e))
    case Ok(userId) =>
      var matches := FindSubmatch(row.itemUrl);
      if |matches| != 2 then Err(Failure("regex match failed: unknown number of matches " + Itoa(|matches|)))
      else match Atoi(matches[1])
        case Err(e) => Err(Wrapped("Failed to parse item ID", e))
        case Ok(itemId) =>
          match Atoi(row.amount)
          case Err(e) => Err(Wrapped("Failed to parse amount", e))
          case Ok(amount) =>
            match parseDate(row.date)
            case Err(e) => Err(Wrapped("Failed to parse date", e))
            case Ok(date) =>
              Ok(Transaction(row.saleId, date, RobloxUser(userId, row.member), RobloxItem(itemId, row.itemName),
                             if kind == Purchase then Negate(amount) else amount, kind))
  }

  /** One row of the reply: decode it, then convert its fields. */
  function MapRow(text: string, kind: TransactionType, codec: Codec): (r: Result<Transaction>)
    ensures codec.row(text).Err? ==> r == Err(Wrapped("Failed to parse row", codec.row(text).error))
    ensures r.Ok? <==> codec.row(text).Ok? && ToTransaction(codec.row(text).value, kind, codec.date).Ok?
    ensures codec.row(text).Ok? ==> r == ToTransaction(codec.row(text).value, kind, codec.date)
  {
    match codec.row(text)
    case Err(e) => Err(Wrapped("Failed to parse row", e))
    case Ok(row) => ToTransaction(row, kind, codec.date)
  }

  /** The conversion GetTransactions applies to each row. */
  function Converter(kind: TransactionType, codec: Codec): string -> Result<Transaction>
  {
    text => MapRow(text, kind, codec)
  }

  /** All rows, all or nothing: the transactions in row order, or the error
      of the first row that fails. */
  function MapAll(rows: seq<string>, convert: string -> Result<Transaction>): (r: Result<seq<Transaction>>)
    ensures r.Ok? ==> |r.value| == |rows|
  {
    if rows == [] then Ok([])
    else match MapAll(rows[..|rows| - 1], convert)
      case Err(e) => Err(e)
      case Ok(ts) =>
        match convert(rows[|rows| - 1])
        case Err(e) => Err(e)
        case Ok(t) => Ok(ts + [t])
  }

  /** The rows map exactly when every row does. */
  lemma {:induction false} MapAllRows(rows: seq<string>, convert: string -> Result<Transaction>)
    ensures MapAll(rows, convert).Ok? <==> forall i | 0 <= i < |rows| :: convert(rows[i]).Ok?
  {
    if rows != [] {
      var front := rows[..|rows| - 1];
      MapAllRows(front, convert);
      assert forall i | 0 <= i < |front| :: front[i] == rows[i];
    }
  }

  /** Row i becomes transaction i. */
  lemma {:induction false} MapAllValues(rows: seq<string>, convert: string -> Result<Transaction>)
    requires MapAll(rows, convert).Ok?
    ensures forall i | 0 <= i < |rows| :: convert(rows[i]) == Ok(MapAll(rows, convert).value[i])
  {
    if rows != [] {
      var front := rows[..|rows| - 1];
      MapAllValues(front, convert);
      assert forall i | 0 <= i < |front| :: front[i] == rows[i];
    }
  }

  /** Once a prefix of the rows fails, the whole call fails the same way. */
  lemma {:induction false} MapAllPrefixFails(rows: seq<string>, n: nat, convert: string -> Result<Transaction>)
    requires n <= |rows| && MapAll(rows[..n], convert).Err?
    ensures MapAll(rows, convert) == MapAll(rows[..n], convert)
    decreases |rows| - n
  {
    if n < |rows| {
      assert rows[..n + 1][..n] == rows[..n];
      MapAllPrefixFails(rows, n + 1, convert);
    } else {
      assert rows[..n] == rows;
    }
  }

  /** The error is the one of the first row that fails. */
  lemma MapAllFirstError(rows: seq<string>, i: nat, convert: string -> Result<Transaction>)
    requires i < |rows| && convert(rows[i]).Err?
    requires forall j | 0 <= j < i :: convert(rows[j]).Ok?
    ensures MapAll(rows, convert) == Err(convert(rows[i]).error)
  {
    var front := rows[..i];
    MapAllRows(front, convert);
    assert forall j | 0 <= j < i :: front[j] == rows[j];
    assert rows[..i + 1][..i] == front;
    MapAllPrefixFails(rows, i + 1, convert);
  }

  /** What GetTransactions makes of the result of its Post. */
  function Listing(response: Option<Client.Response>, err: Option<Error>, kind: TransactionType, codec: Codec)
    : (r: Result<seq<Transaction>>)
    requires err.None? ==> response.Some?
    ensures err.Some? ==> r == Err(Wrapped("Failed to retrieve transactions", err.value))
    ensures err.None? && response.value.statusCode != 200 ==>
      r == Err(Failure("Unknown status code " + Itoa(response.value.statusCode)))
    ensures err.None? && response.value.statusCode == 200 && codec.envelope(response.value.body).Err? ==>
      r == Err(Wrapped("Failed to parse JSON", codec.envelope(response.value.body).error))
    ensures err.None? && response.value.statusCode == 200 && codec.envelope(response.value.body).Ok?
            && "d" !in codec.envelope(response.value.body).value ==>
      r == Err(Failure("No data found"))
    ensures r.Ok? ==>
      && err.None? && response.value.statusCode == 200 && codec.envelope(response.value.body).Ok?
      && "d" in codec.envelope(response.value.body).value
    ensures err.None? && response.value.statusCode == 200 && codec.envelope(response.value.body).Ok?
            && "d" in codec.envelope(response.value.body).value ==>
      var rows := codec.rows(codec.envelope(response.value.body).value["d"]);
      && (rows.Err? ==> r == Err(Wrapped("Failed to parse data JSON", rows.error)))
      && (r.Ok? <==> rows.Ok? && forall i | 0 <= i < |rows.value| :: MapRow(rows.value[i], kind, codec).Ok?)
      && (r.Ok? ==> |r.value| == |rows.value|
                    && forall i | 0 <= i < |rows.value| :: MapRow(rows.value[i], kind, codec) == Ok(r.value[i]))
  {
    if err.Some? then Err(Wrapped("Failed to retrieve transactions", err.value))
    else if response.value.statusCode != 200 then Err(Failure("Unknown status code " + Itoa(response.value.statusCode)))
    else match codec.envelope(response.value.body)
      case Err(e) => Err(Wrapped("Failed to parse JSON", e))
      case Ok(envelope) =>
        if "d" !in envelope then Err(Failure("No data found"))
        else match codec.rows(envelope["d"])
          case Err(e) => Err(Wrapped("Failed to parse data JSON", e))
          case Ok(rows) =>
            var m := MapAll(rows, Converter(kind, codec));
            MapAllRows(rows, Converter(kind, codec));
            if m.Ok? then MapAllValues(rows, Converter(kind, codec)); m else m
  }

  const TransactionsURL := "https://www.roblox.com/My/money.aspx/getmytransactions"
  const JsonContentType := "application/json"

  /** The name the server knows a transaction type by. */
  function KindName(kind: TransactionType): (name: string)
    ensures name == "sale" <==> kind == Sale
    ensures name == "purchase" <==> kind == Purchase
  {
    match kind
    case Sale => "sale"
    case Purchase => "purchase"
  }

  /** The form GetTransactions marshals: the kind's name, and the start
      index converted with string(start), which makes it one character
      whose code point is the index. */
  function ListForm(start: int64, kind: TransactionType): (form: map<string, string>)
    ensures form.Keys == {"transactiontype", "startindex"}
    ensures form["transactiontype"] == KindName(kind) && form["startindex"] == CodePointString(start as int)
  {
    map["transactiontype" := KindName(kind), "startindex" := CodePointString(start as int)]
  }

  /** The start index does not reach the server as a number: its field
      never reads back as the index. */
  lemma StartIndexNotDecimal(start: int64, kind: TransactionType)
    ensures Atoi(ListForm(start, kind)["startindex"]) != Ok(start)
  {
    CodePointIsNotDecimal(start);
  }

  /** The form with the start index in decimal, as the server's
      "startindex" calls for. */
  function ListFormIntended(start: int64, kind: TransactionType): (form: map<string, string>)
    ensures form.Keys == {"transactiontype", "startindex"} && form["transactiontype"] == KindName(kind)
  {
    map["transactiontype" := KindName(kind), "startindex" := Itoa(start as int)]
  }

  lemma StartIndexRoundTrip(start: int64, kind: TransactionType)
    ensures Atoi(ListFormIntended(start, kind)["startindex"]) == Ok(start)
  {
    AtoiItoa(start);
  }

  /** GetTransactions: marshal the form, post it through the client, check
      the status, unwrap the reply and convert its rows one by one,
      returning nothing at all on the first row that fails. */
  method GetTransactions(c: Client.Client, start: int64, kind: TransactionType, codec: Codec,
                         marshal: map<string, string> -> Result<string>)
    returns (r: Result<seq<Transaction>>)
    requires marshal(ListForm(start, kind)).Ok? && c.urlError(TransactionsURL).None? ==> Client.Settles(c.script)
    modifies c`script, c`wire
    ensures var body := marshal(ListForm(start, kind));
      body.Err? ==>
        r == Err(Wrapped("Failed to marshal json", body.error)) && c.script == old(c.script) && c.wire == old(c.wire)
    ensures var body := marshal(ListForm(start, kind));
      body.Ok? && c.urlError(TransactionsURL).Some? ==>
        && r == Err(Wrapped("Failed to retrieve transactions", Wrapped("Failed to create request", c.urlError(TransactionsURL).value)))
        && c.script == old(c.script) && c.wire == old(c.wire)
    ensures var body := marshal(ListForm(start, kind));
      body.Ok? && c.urlError(TransactionsURL).None? ==>
        var x := Client.Run(old(c.script), Client.PostRequest(TransactionsURL, JsonContentType, Client.Raw(body.value)), 0);
        && c.wire == old(c.wire) + x.sent && c.script == old(c.script)[|x.sent|..]
        && r == Listing(x.response, x.err, kind, codec)
  {
    var marshaled := marshal(ListForm(start, kind));
    if marshaled.Err? {
      return Err(Wrapped("Failed to marshal json", marshaled.error));
    }
    var res, err := c.Post(TransactionsURL, JsonContentType, Client.Raw(marshaled.value));
    if err.Some? {
      return Err(Wrapped("Failed to retrieve transactions", err.value));
    }
    r := MapReply(res.value, kind, codec);
  }

  /** The part of GetTransactions after a Post that succeeded. */
  method MapReply(res: Client.Response, kind: TransactionType, codec: Codec) returns (r: Result<seq<Transaction>>)
    ensures r == Listing(Some(res), None, kind, codec)
  {
    if res.statusCode != 200 {
      return Err(Failure("Unknown status code " + Itoa(res.statusCode)));
    }
    var envelope := codec.envelope(res.body);
    if envelope.Err? {
      return Err(Wrapped("Failed to parse JSON", envelope.error));
    }
    if "d" !in envelope.value {
      return Err(Failure("No data found"));
    }
    var holder := codec.rows(envelope.value["d"]);
    if holder.Err? {
      return Err(Wrapped("Failed to parse data JSON", holder.error));
    }
    r := MapRows(holder.value, Converter(kind, codec));
  }

  /** The loop over the rows: each is decoded and converted in turn, and
      the first that fails ends the call with its error alone. */
  method MapRows(rows: seq<string>, convert: string -> Result<Transaction>) returns (r: Result<seq<Transaction>>)
    ensures r == MapAll(rows, convert)
  {
    var transactions: seq<Transaction> := [];
    for i := 0 to |rows|
      invariant MapAll(rows[..i], convert) == Ok(transactions)
    {
      assert rows[..i + 1][..i] == rows[..i];
      var t := convert(rows[i]);
      if t.Err? {
        MapAllPrefixFails(rows, i + 1, convert);
        return Err(t.error);
      }
      transactions := transactions + [t.value];
    }
    assert rows[..|rows|] == rows;
    return Ok(transactions);
  }

  // ---------------------------------------------------------------------
  // syncSales

  /** What GetTransactions answers to one page request. */
  type Page = Result<seq<Transaction>>

  /** The longest prefix of a page whose IDs are above the mark: the items
      newer than the mark, the page being newest first. */
  function NewItems(ts: seq<Transaction>, lastID: int64): (r: seq<Transaction>)
    ensures |r| <= |ts| && r == ts[..|r|]
    ensures forall i | 0 <= i < |r| :: r[i].id > lastID
    ensures |r| < |ts| ==> ts[|r|].id <= lastID
  {
    if ts == [] || ts[0].id <= lastID then [] else [ts[0]] + NewItems(ts[1..], lastID)
  }

  /** Any prefix that stops at the first ID not above the mark is that
      longest prefix. */
  lemma NewItemsAt(ts: seq<Transaction>, lastID: int64, i: nat)
    requires i <= |ts| && (forall j | 0 <= j < i :: ts[j].id > lastID)
    requires i < |ts| ==> ts[i].id <= lastID
    ensures NewItems(ts, lastID) == ts[..i]
  {
  }

  /** A page after which the walk asks for the next one: it came back, is
      not empty, and even its last item is newer than the mark. */
  predicate Continues(p: Page, lastID: int64)
  {
    p.Ok? && |p.value| > 0 && p.value[|p.value| - 1].id > lastID
  }

  /** How many pages from the first on make the walk go on. */
  function LeadingPages(pages: seq<Page>, lastID: int64): (n: nat)
    ensures n <= |pages|
    ensures forall i | 0 <= i < n :: Continues(pages[i], lastID)
    ensures n < |pages| ==> !Continues(pages[n], lastID)
  {
    if pages == [] || !Continues(pages[0], lastID) then 0 else 1 + LeadingPages(pages[1..], lastID)
  }

  /** The pages the server gives hold one that ends the walk; the code
      itself would ask for pages forever otherwise. */
  predicate Stops(pages: seq<Page>, lastID: int64)
  {
    if lastID == -1 then |pages| > 0 else LeadingPages(pages, lastID) < |pages|
  }

  /** What one call of syncSales does: the mark and error it returns, the
      transactions it sends, and the start indices it asks for. */
  datatype Sync = Sync(mark: int64, err: Option<Error>, sent: seq<Transaction>, starts: seq<int>)

  function PageFailure(page: nat): string
  {
    "Failed to retrieve page " + Itoa(page) + " of transactions"
  }

  /** The walk from page on, page k being the reply to the request for
      start index 20k. */
  function WalkFrom(pages: seq<Page>, lastID: int64, page: nat): (w: Sync)
    requires page <= LeadingPages(pages, lastID) < |pages|
    ensures |w.starts| > 0 && w.starts[0] == page * 20
    ensures w.err.Some? ==> w.mark == lastID
    decreases LeadingPages(pages, lastID) - page
  {
    match pages[page]
    case Err(e) => Sync(lastID, Some(Wrapped(PageFailure(page), e)), [], [page * 20])
    case Ok(ts) =>
      if |ts| == 0 then Sync(lastID, None, [], [page * 20])
      else if ts[|ts| - 1].id <= lastID then Sync(ts[0].id, None, NewItems(ts, lastID), [page * 20])
      else
        var w := WalkFrom(pages, lastID, page + 1);
        w.(sent := NewItems(ts, lastID) + w.sent, starts := [page * 20] + w.starts)
  }

  /** syncSales: with the mark -1 it only reads the newest ID off page 0;
      otherwise it walks the pages. */
  function Walk(pages: seq<Page>, lastID: int64): (w: Sync)
    requires Stops(pages, lastID)
    ensures |w.starts| > 0 && w.starts[0] == 0
    ensures w.err.Some? ==> w.mark == lastID
    ensures lastID == -1 ==> w.sent == [] && w.starts == [0]
  {
    if lastID == -1 then
      match pages[0]
      case Err(e) => Sync(lastID, Some(Wrapped("Failed to retrieve transactions", e)), [], [0])
      case Ok(ts) => Sync(if |ts| > 0 then ts[0].id else lastID, None, [], [0])
    else WalkFrom(pages, lastID, 0)
  }

  /** With the mark -1 one page is asked for, from index 0, and nothing is
      sent; the new mark is the page's first ID, or -1 when it is empty or
      failed. */
  lemma WalkBaseline(pages: seq<Page>)
    requires Stops(pages, -1)
    ensures var w := Walk(pages, -1);
      && w.starts == [0] && w.sent == []
      && (w.err.Some? <==> pages[0].Err?)
      && w.mark == if pages[0].Ok? && |pages[0].value| > 0 then pages[0].value[0].id else -1
  {
  }

  /** Pages are asked for in order, page k at start index 20k, up to and
      including the first page that does not continue the walk. */
  lemma {:induction false} WalkStarts(pages: seq<Page>, lastID: int64, page: nat)
    requires page <= LeadingPages(pages, lastID) < |pages|
    ensures var w := WalkFrom(pages, lastID, page);
      |w.starts| == LeadingPages(pages, lastID) + 1 - page
      && forall i | 0 <= i < |w.starts| :: w.starts[i] == (page + i) * 20
    decreases LeadingPages(pages, lastID) - page
  {
    if Continues(pages[page], lastID) {
      WalkStarts(pages, lastID, page + 1);
    }
  }

  /** The new items of the pages from page up to n, in order. */
  function Emitted(pages: seq<Page>, lastID: int64, page: nat, n: nat): seq<Transaction>
    requires page <= n <= |pages| && forall i | page <= i < n :: pages[i].Ok?
    decreases n - page
  {
    if page == n then [] else NewItems(pages[page].value, lastID) + Emitted(pages, lastID, page + 1, n)
  }

  /** What the page that ends the walk sends: its new items, if it came. */
  function Closing(p: Page, lastID: int64): seq<Transaction>
  {
    if p.Ok? then NewItems(p.value, lastID) else []
  }

  /** The walk sends the new items of every page it reads, in page order,
      including the page that ends it; a page that fails sends nothing and
      takes nothing back. */
  lemma {:induction false} WalkSent(pages: seq<Page>, lastID: int64, page: nat)
    requires page <= LeadingPages(pages, lastID) < |pages|
    ensures var n := LeadingPages(pages, lastID);
      WalkFrom(pages, lastID, page).sent == Emitted(pages, lastID, page, n) + Closing(pages[n], lastID)
    decreases LeadingPages(pages, lastID) - page
  {
    var n := LeadingPages(pages, lastID);
    if Continues(pages[page], lastID) {
      WalkSent(pages, lastID, page + 1);
      Client.AppendAssociates(NewItems(pages[page].value, lastID), Emitted(pages, lastID, page + 1, n), Closing(pages[n], lastID));
    }
  }

  /** How the page that ends the walk decides its results. */
  predicate Ended(p: Page, page: nat, lastID: int64, mark: int64, err: Option<Error>)
  {
    match p
    case Err(e) => mark == lastID && err == Some(Wrapped(PageFailure(page), e))
    case Ok(ts) => err == None && mark == if |ts| == 0 then lastID else ts[0].id
  }

  /** The page that ends the walk decides the results: a failed request
      returns the mark unchanged with the error, an empty page returns the
      mark unchanged, and a page whose last item is not newer than the mark
      returns that page's first ID. */
  lemma {:induction false} WalkEnds(pages: seq<Page>, lastID: int64, page: nat)
    requires page <= LeadingPages(pages, lastID) < |pages|
    ensures var n := LeadingPages(pages, lastID); var w := WalkFrom(pages, lastID, page);
      Ended(pages[n], n, lastID, w.mark, w.err)
    decreases LeadingPages(pages, lastID) - page
  {
    if Continues(pages[page], lastID) {
      WalkEnds(pages, lastID, page + 1);
    }
  }

  /** syncSales: the channel is the sequence sent, and page k of the
      server is the reply to the k-th request. */
  method SyncSales(lastID: int64, pages: seq<Page>)
    returns (mark: int64, err: Option<Error>, sent: seq<Transaction>, starts: seq<int>)
    requires Stops(pages, lastID)
    ensures Sync(mark, err, sent, starts) == Walk(pages, lastID)
  {
    sent := [];
    starts := [];
    if lastID == -1 {
      starts := [0];
      var transactions := pages[0];
      if transactions.Err? {
        return lastID, Some(Wrapped("Failed to retrieve transactions", transactions.error)), sent, starts;
      }
      if |transactions.value| > 0 {
        return transactions.value[0].id, None, sent, starts;
      }
    } else {
      var page: nat := 0;
      while true
        invariant page <= LeadingPages(pages, lastID)
        invariant var w := WalkFrom(pages, lastID, page);
          Walk(pages, lastID) == Sync(w.mark, w.err, sent + w.sent, starts + w.starts)
        decreases LeadingPages(pages, lastID) - page
      {
        var reply := pages[page];
        starts := starts + [page * 20];
        if reply.Err? {
          assert sent + [] == sent;
          return lastID, Some(Wrapped(PageFailure(page), reply.error)), sent, starts;
        }
        var transactions := reply.value;
        ghost var before := sent;
        sent := SendNewItems(sent, transactions, lastID);
        if |transactions| == 0 {
          assert sent + [] == sent;
          break;
        } else if transactions[|transactions| - 1].id <= lastID || lastID == -1 {
          return transactions[0].id, None, sent, starts;
        }
        Client.AppendAssociates(before, NewItems(transactions, lastID), WalkFrom(pages, lastID, page + 1).sent);
        Client.AppendAssociates(starts[..|starts| - 1], [page * 20], WalkFrom(pages, lastID, page + 1).starts);
        assert starts[..|starts| - 1] + [page * 20] == starts;
        page := page + 1;
      }
    }
    return lastID, None, sent, starts;
  }

  /** The index loop of syncSales: send the items of a page from the first
      on while their IDs are above the mark. */
  method SendNewItems(sent: seq<Transaction>, ts: seq<Transaction>, lastID: int64) returns (out: seq<Transaction>)
    ensures out == sent + NewItems(ts, lastID)
  {
    out := sent;
    var i := 0;
    while i < |ts| && ts[i].id > lastID
      invariant i <= |ts| && out == sent + ts[..i]
      invariant forall j | 0 <= j < i :: ts[j].id > lastID
    {
      out := out + [ts[i]];
      assert ts[..i + 1] == ts[..i] + [ts[i]];
      i := i + 1;
    }
    NewItemsAt(ts, lastID, i);
  }

  // ---------------------------------------------------------------------
  // The mark syncSales hands to its next call

  function Tx(id: int64): Transaction
  {
    Transaction(id, Date(2017, 1, 1), RobloxUser(1, "buyer"), RobloxItem(2, "item"), 5, Sale)
  }

  /** The mark is the first ID of the page the walk stops on, not the
      newest ID it saw: with the mark 45 and pages [50, 48] and [44, 40],
      the call sends 50 and 48 and returns 44, and the next call, with 44,
      sends 50 and 48 again. */
  lemma MarkRegresses()
    ensures var pages := [Ok([Tx(50), Tx(48)]), Ok([Tx(44), Tx(40)])];
      && Stops(pages, 45) && Walk(pages, 45).sent == [Tx(50), Tx(48)] && Walk(pages, 45).mark == 44
      && Stops(pages, 44) && Walk(pages, 44).sent == [Tx(50), Tx(48)]
  {
    var pages: seq<Page> := [Ok([Tx(50), Tx(48)]), Ok([Tx(44), Tx(40)])];
    assert LeadingPages(pages[1..], 45) == 0;
    assert LeadingPages(pages, 45) == 1;
    assert LeadingPages(pages[1..], 44) == 0;
    assert LeadingPages(pages, 44) == 1;
    assert NewItems([Tx(44), Tx(40)], 45) == [];
    assert NewItems([Tx(44), Tx(40)], 44) == [];
    assert NewItems([Tx(48)], 45) == [Tx(48)];
    assert NewItems([Tx(48)], 44) == [Tx(48)];
  }

  /** An empty page keeps the old mark even after newer items were sent:
      with the mark 45 and pages [50] and [], the call sends 50 and returns
      45, so the next call sends 50 again. */
  lemma EmptyPageKeepsMark()
    ensures var pages := [Ok([Tx(50)]), Ok([])];
      && Stops(pages, 45) && Walk(pages, 45).sent == [Tx(50)] && Walk(pages, 45).mark == 45
  {
    var pages: seq<Page> := [Ok([Tx(50)]), Ok([])];
    assert LeadingPages(pages[1..], 45) == 0;
    assert LeadingPages(pages, 45) == 1;
  }

  /** syncSales with the mark it evidently means to hand on: the newest ID
      seen, which is the first ID of page 0, whenever the call succeeds. */
  function WalkIntended(pages: seq<Page>, lastID: int64): (w: Sync)
    requires Stops(pages, lastID)
    ensures w.sent == Walk(pages, lastID).sent && w.err == Walk(pages, lastID).err
    ensures w.err.None? && pages[0].Ok? && |pages[0].value| > 0 ==> w.mark == pages[0].value[0].id
    ensures !(w.err.None? && pages[0].Ok? && |pages[0].value| > 0) ==> w.mark == Walk(pages, lastID).mark
  {
    var w := Walk(pages, lastID);
    if w.err.None? && pages[0].Ok? && |pages[0].value| > 0 then w.(mark := pages[0].value[0].id) else w
  }

  /** A page lists its transactions newest first. */
  predicate Descending(ts: seq<Transaction>)
  {
    forall i, j | 0 <= i <= j < |ts| :: ts[j].id <= ts[i].id
  }

  /** With that mark, a call that succeeds is followed, on the same pages,
      by a call that sends nothing again. */
  lemma NoResendAcrossTicks(pages: seq<Page>, lastID: int64)
    requires Stops(pages, lastID) && WalkIntended(pages, lastID).err.None?
    requires pages[0].Ok? ==> Descending(pages[0].value)
    ensures Stops(pages, WalkIntended(pages, lastID).mark)
    ensures WalkIntended(pages, WalkIntended(pages, lastID).mark).sent == []
  {
    var m := WalkIntended(pages, lastID).mark;
    if lastID != -1 {
      assert pages[0].Ok?;
    }
    var ts := pages[0].value;
    if m != -1 {
      if |ts| > 0 {
        assert m == ts[0].id;
        assert !Continues(pages[0], m);
      } else {
        assert m == lastID;
      }
      assert LeadingPages(pages, m) == 0;
      assert NewItems(ts, m) == [];
    }
  }
}

=== FILE: upload.dfy ===
/** UploadModel of user/upload.go: the model's options become the query of
    the upload URL, the body is posted through the client, and the reply
    must name both the new asset and its version. url.Values.Encode and
    JSON decoding are parameters. */
module Upload {
  import opened Errors
  import opened Conversions
  import opened Http
  import Client

  datatype ModelOptions = ModelOptions(name: string, description: string, copyLocked: bool,
                                       allowComments: bool, groupId: int64)

  const UploadBase := "https://data.roblox.com/Data/Upload.ashx?"
  const XmlContentType := "application/xml"

  /** The keys every upload query holds. */
  const FixedKeys: set<string> :=
    {"type", "genreTypeId", "json", "assetid", "name", "description", "ispublic", "allowComments"}

  /** The query of the upload URL: the fixed parameters of a model upload,
      the options, and the group only when one is given (-1 means none).
      The group goes through string(GroupID), a code-point conversion. */
  function Query(options: ModelOptions): (q: Values)
    ensures q.Keys == FixedKeys + (if options.groupId as int != -1 then {"groupId"} else {})
    ensures forall k | k in q :: |q[k]| == 1
    ensures options.groupId as int != -1 ==> q["groupId"] == [CodePointString(options.groupId as int)]
  {
    var q := map["type" := ["Model"], "genreTypeId" := ["1"], "json" := ["1"], "assetid" := ["0"],
                 "name" := [options.name], "description" := [options.description],
                 "ispublic" := [FormatBool(!options.copyLocked)],
                 "allowComments" := [FormatBool(options.allowComments)]];
    if options.groupId as int != -1 then q["groupId" := [CodePointString(options.groupId as int)]] else q
  }

  /** A copy-locked model is uploaded as not public, and comments are
      allowed exactly when the options say so. */
  lemma QueryFlags(options: ModelOptions)
    ensures Query(options)["ispublic"] == ["true"] <==> !options.copyLocked
    ensures Query(options)["allowComments"] == ["true"] <==> options.allowComments
  {
  }

  /** The fixed parameters of every upload, and the name and description
      as given. */
  lemma QueryFixed(options: ModelOptions)
    ensures var q := Query(options);
      && q["type"] == ["Model"] && q["genreTypeId"] == ["1"] && q["json"] == ["1"] && q["assetid"] == ["0"]
      && q["name"] == [options.name] && q["description"] == [options.description]
  {
  }

  /** parseOpt filled by successive Set calls, the last one only for a
      group. */
  method BuildQuery(options: ModelOptions) returns (parseOpt: Values)
    ensures parseOpt == Query(options)
  {
    parseOpt := map[];
    parseOpt := SetValue(parseOpt, "type", "Model");
    parseOpt := SetValue(parseOpt, "genreTypeId", "1");
    parseOpt := SetValue(parseOpt, "json", "1");
    parseOpt := SetValue(parseOpt, "assetid", "0");
    parseOpt := SetValue(parseOpt, "name", options.name);
    parseOpt := SetValue(parseOpt, "description", options.description);
    parseOpt := SetValue(parseOpt, "ispublic", FormatBool(!options.copyLocked));
    parseOpt := SetValue(parseOpt, "allowComments", FormatBool(options.allowComments));
    if options.groupId as int != -1 {
      parseOpt := SetValue(parseOpt, "groupId", CodePointString(options.groupId as int));
    }
  }

  /** The group does not reach the server as a number: its parameter never
      reads back as the group ID. */
  lemma GroupIdNotDecimal(options: ModelOptions)
    requires options.groupId as int != -1
    ensures "groupId" in Query(options) && Atoi(Query(options)["groupId"][0]) != Ok(options.groupId)
  {
    CodePointIsNotDecimal(options.groupId);
  }

  /** The query with the group ID in decimal, as the upload endpoint's
      groupId calls for. */
  function QueryIntended(options: ModelOptions): (q: Values)
    ensures q.Keys == Query(options).Keys
    ensures q - {"groupId"} == Query(options) - {"groupId"}
  {
    var q := Query(options);
    if options.groupId as int != -1 then q["groupId" := [Itoa(options.groupId as int)]] else q
  }

  lemma GroupIdRoundTrip(options: ModelOptions)
    requires options.groupId as int != -1
    ensures "groupId" in QueryIntended(options) && Atoi(QueryIntended(options)["groupId"][0]) == Ok(options.groupId)
  {
    AtoiItoa(options.groupId);
  }

  /** The request UploadModel hands to the client. */
  function UploadRequest(url: string, body: Client.Payload): (req: Client.RequestState)
    ensures req.verb == "POST" && req.url == url && req.Clones()
    ensures GetHeader(req.header, "Content-Type") == XmlContentType && GetHeader(req.header, "User-Agent") == ""
    ensures "User-Agent" in req.header && req.header["User-Agent"] == [""]
    ensures req.header.Keys == {"Content-Type", "User-Agent"}
    ensures req.body == Some(Client.Unread(body)) && req.getBody == Some(Ok(body))
  {
    UploadHeadersCanonical();
    var h := SetHeader(SetHeader(map[], "Content-Type", XmlContentType), "User-Agent", "");
    Client.RequestState("POST", url, h, Some(Client.Unread(body)), Some(Ok(body)))
  }

  /** "Content-Type" and "User-Agent" are already in canonical form, so
      the upload's two entries are stored under the names as written; the
      empty User-Agent is the one Go finds, and it then sends no default
      agent. */
  lemma UploadHeadersCanonical()
    ensures CanonicalKey("Content-Type") == "Content-Type"
    ensures CanonicalKey("User-Agent") == "User-Agent"
  {
    AlreadyCanonical("Content-Type");
    AlreadyCanonical("User-Agent");
  }

  /** A field name made of token characters that is already folded is its
      own canonical key. */
  lemma AlreadyCanonical(k: string)
    requires forall i | 0 <= i < |k| :: IsTokenChar(k[i]) && FoldAt(k, i) == k[i]
    ensures CanonicalKey(k) == k
  {
    assert IsToken(k);
    CanonicalKeyFolds(k);
  }

  /** The IDs of a successful upload. */
  datatype Uploaded = Uploaded(asset: string, version: string)

  /** What UploadModel makes of the reply: a status other than 200 is an
      error carrying it, then the body must decode and hold both IDs, which
      come back in decimal. */
  function ReadReply(res: Client.Response, decode: string -> Result<map<string, int64>>): (r: Result<Uploaded>)
    ensures res.statusCode != 200 ==> r == Err(Failure("Upload failed: Unknown status code " + Itoa(res.statusCode)))
    ensures res.statusCode == 200 && decode(res.body).Err? ==> r == Err(Wrapped("Failed to parse JSON", decode(res.body).error))
    ensures r.Ok? <==> res.statusCode == 200 && decode(res.body).Ok?
                       && "AssetId" in decode(res.body).value && "AssetVersionId" in decode(res.body).value
    ensures res.statusCode == 200 && decode(res.body).Ok? && r.Err? ==> r == Err(Failure("Invalid JSON"))
  {
    if res.statusCode != 200 then Err(Failure("Upload failed: Unknown status code " + Itoa(res.statusCode)))
    else match decode(res.body)
      case Err(e) => Err(Wrapped("Failed to parse JSON", e))
      case Ok(data) =>
        if "AssetId" !in data then Err(Failure("Invalid JSON"))
        else if "AssetVersionId" !in data then Err(Failure("Invalid JSON"))
        else Ok(Uploaded(Itoa(data["AssetId"] as int), Itoa(data["AssetVersionId"] as int)))
  }

  /** The IDs returned read back as the IDs the reply held. */
  lemma UploadIdsRoundTrip(res: Client.Response, decode: string -> Result<map<string, int64>>)
    requires ReadReply(res, decode).Ok?
    ensures var data := decode(res.body).value; var r := ReadReply(res, decode).value;
      Atoi(r.asset) == Ok(data["AssetId"]) && Atoi(r.version) == Ok(data["AssetVersionId"])
  {
    var data := decode(res.body).value;
    AtoiItoa(data["AssetId"]);
    AtoiItoa(data["AssetVersionId"]);
  }

  /** The three results of UploadModel once Do has come back: "" for both
      IDs on any error. */
  predicate Reported(response: Option<Client.Response>, failure: Option<Error>,
                     decode: string -> Result<map<string, int64>>, asset: string, version: string, err: Option<Error>)
    requires failure.None? ==> response.Some?
  {
    if failure.Some? then asset == "" && version == "" && err == Some(Wrapped("Request failed", failure.value))
    else match ReadReply(response.value, decode)
      case Err(e) => asset == "" && version == "" && err == Some(e)
      case Ok(u) => asset == u.asset && version == u.version && err == None
  }

  /** UploadModel: build the query, post the body to the upload URL with
      an XML Content-Type and an empty User-Agent through the client from
      depth 0, and read the IDs off the reply. */
  method UploadModel(c: Client.Client, body: Client.Payload, options: ModelOptions,
                     encode: Values -> string, decode: string -> Result<map<string, int64>>)
    returns (asset: string, version: string, err: Option<Error>)
    requires c.urlError(UploadBase + encode(Query(options))).None? ==> Client.Settles(c.script)
    modifies c`script, c`wire
    ensures var url := UploadBase + encode(Query(options));
      c.urlError(url).Some? ==>
        && asset == "" && version == "" && err == Some(Wrapped("Failed to create request", c.urlError(url).value))
        && c.script == old(c.script) && c.wire == old(c.wire)
    ensures var url := UploadBase + encode(Query(options));
      c.urlError(url).None? ==>
        var x := Client.Run(old(c.script), UploadRequest(url, body), 0);
        && c.wire == old(c.wire) + x.sent && c.script == old(c.script)[|x.sent|..]
        && Reported(x.response, x.err, decode, asset, version, err)
  {
    var parseOpt := BuildQuery(options);
    var url := UploadBase + encode(parseOpt);
    if c.urlError(url).Some? {
      return "", "", Some(Wrapped("Failed to create request", c.urlError(url).value));
    }
    var req := new Client.Request("POST", url, Some(body));
    req.header := SetHeader(req.header, "Content-Type", XmlContentType);
    req.header := SetHeader(req.header, "User-Agent", "");
    var res, e := c.Do(req);
    if e.Some? {
      return "", "", Some(Wrapped("Request failed", e.value));
    }
    asset, version, err := FinishUpload(res.value, decode);
  }

  /** The checks of UploadModel on the reply, one after the other. */
  method FinishUpload(res: Client.Response, decode: string -> Result<map<string, int64>>)
    returns (asset: string, version: string, err: Option<Error>)
    ensures Reported(Some(res), None, decode, asset, version, err)
  {
    if res.statusCode != 200 {
      return "", "", Some(Failure("Upload failed: Unknown status code " + Itoa(res.statusCode)));
    }
    var data := decode(res.body);
    if data.Err? {
      return "", "", Some(Wrapped("Failed to parse JSON", data.error));
    }
    if "AssetId" !in data.value {
      return "", "", Some(Failure("Invalid JSON"));
    }
    if "AssetVersionId" !in data.value {
      return "", "", Some(Failure("Invalid JSON"));
    }
    return Itoa(data.value["AssetId"] as int), Itoa(data.value["AssetVersionId"] as int), None;
  }
}
